=== FILE: README.md ===
# ncbi_data core, modelled in Dafny

`ncbi_data` resolves an NCBI taxonomy id to the genome assemblies known for it and writes a 30-column CSV report, one row per resolved assembly id. It enriches each row with summary fields, sequence statistics, annotation flags and the linked SRA runs and sequencing platforms. Optionally it downloads the data files of each assembly from the NCBI FTP server into per-accession directories, and writes a summary of how many files arrived for each one.

This project models the decision logic between the network calls. All network responses are inputs.

- `retry.dfy`, module `RetryLoop`: the bounded retry loop that guards every Entrez call.
  - A call gets three attempts.
  - Server errors (status 500 to 599, section 15.6 of RFC 9110) and Too Many Requests (status 429, section 4 of RFC 6585) are retried.
  - The read loop of `get_ids` retries a `RuntimeError` instead.
  - Anything else propagates.
  - When every attempt is used up, the loop falls through without a new handle. That is modelled as the outcome `Exhausted`.
- `discovery.dfy`, module `Discovery`: accession discovery. It keeps every record's accession in order and counts `GCF_` and `GCA_` accessions.
- `records.dfy`, module `Records`:
  - the fixed 30-column header;
  - the five property flags and the six sequence statistics;
  - the BioProject sentinel;
  - the named-field report row and its cells in header order.
- `enrichment.dfy`, module `Enrichment`:
  - the per-accession pipeline: id resolution, summary fetch, SRA uid search, SRA documents, and the `;`-joins;
  - its failure cases;
  - the report as header plus rows.
- `ingress.dfy`, module `Ingress`, for `download_from_ftp`:
  - validation of the requested kinds and `get_accession`;
  - the remote and local suffix of each kind, and source and destination paths;
  - the per-accession directories and the returned list.
  - The file system is two sets of paths (directories and files). The file server is the set of source URLs that can be fetched.
- `download.dfy`, module `GenomeDownload`: `get_ftp_paths`, and the summary loop of `download_genome_data`.
- `text.dfy`, module `Text`: the Python string and path operations these use (`str.split`, `str.join`, `str.startswith`, `os.path.basename`, two-argument `os.path.join`).
- `results.dfy`, module `Results`: the `Option` and `Result` types.

A remote call is simulated by a `Script`: the answers it gives on its first, second and third attempt. The remote database (`Enrichment.Remote`) maps each request key to its script, so every run of the pipeline is deterministic.

Three behaviours of the program shape the model:

- The accession of a path (`get_accession`) is the first two `_`-separated tokens of its basename.
- A summary whose `Meta` has no `Stats` element stops the run. `soup.find('Stats')` gives None, and `stats.find_all` then raises AttributeError. The model records this as the failure `Enrichment.Failure.NoStatsBlock`.
- A retry loop that uses up its three attempts raises nothing itself. The statement after the loop fails instead, and the run stops. The model records every such case as the failure `NothingBound`. The statement fails in one of two ways:
  - In `get_ids`, `get_assembly_summary_json`, `get_sra_uids`, and for the first uid of `get_sra_info`, it reads a `handle` that was never bound, which raises UnboundLocalError. The read loop of `get_ids` leaves `record` unbound in the same way.
  - For a later uid of `get_sra_info`, `handle` still holds the previous uid's response, which has already been read. `ET.fromstring` then parses an empty body and raises a parse error.

## Model

| member | source | states |
|---|---|---|
| RetryLoop.Retry | ncbi_data/get_genome_list.py:82-102 | A guarded call returns the answer of attempt n ≤ 3 only if every earlier attempt raised a retryable fault. It re-raises a non-retryable fault on the attempt where it occurs. It is exhausted exactly when all three attempts raised retryable faults. |
| RetryLoop.RetryFrom | ncbi_data/get_genome_list.py:131-152 | The same characterisation for the loop resumed at any attempt number, given that the attempts before it were retried. |
| RetryLoop.AttemptsBounded | ncbi_data/get_genome_list.py:167-186 | Whatever the server answers, a call makes between one and three requests, and every request before the last raised a retryable fault. |
| RetryLoop.OnlyCallsMadeMatter | ncbi_data/get_genome_list.py:203-222 | Two servers that answer the requests actually made in the same way lead to the same outcome. Answers past the last request are never consulted. |
| RetryLoop.FirstAnswerUnique | ncbi_data/get_genome_list.py:131-152 | The loop breaks on the first answer, so at most one answer is the one that ends it. |
| RetryLoop.OutcomeUnique | ncbi_data/get_genome_list.py:82-102 | The first attempt that answers, or raises a non-retryable fault, decides the outcome and the number of calls. |
| RetryLoop.RateLimitedTwiceThenAnswered | ncbi_data/get_genome_list.py:96-100 | Two 429 replies and then an answer give that answer after exactly three calls. |
| RetryLoop.RateLimitedThrice | ncbi_data/get_genome_list.py:82-114 | Three 429 replies exhaust the loop without binding a new handle. |
| RetryLoop.ClientErrorPropagates | ncbi_data/get_genome_list.py:101-102 | A 404 after a 503 is re-raised on the second call, and the third answer is never requested. |
| Enrichment.ResolveIds | ncbi_data/get_genome_list.py:82-114 | `get_ids` succeeds exactly when the search loop (retrying 5xx and 429) and then the read loop (retrying RuntimeError) both finish with an answer. It returns the answer of the read attempt that ended the read loop, the first one not retried. It fails with `NothingBound` exactly when either loop runs out of attempts. A re-raised fault is one the loop that raised it does not retry. |
| Enrichment.FetchSummary | ncbi_data/get_genome_list.py:131-154 | `get_assembly_summary_json` succeeds exactly when its loop, retrying 5xx and 429, finishes with an answer. It returns the summary of the attempt that ended the loop, the first one not retried. It fails with `NothingBound` exactly when all three attempts were retried. |
| Enrichment.SraUids | ncbi_data/get_genome_list.py:167-189 | `get_sra_uids` succeeds exactly when its loop, retrying 5xx and 429, finishes with an answer. It returns the uid list of the attempt that ended the loop, the first one not retried. It fails with `NothingBound` exactly when all three attempts were retried. |
| Enrichment.Guarded | ncbi_data/get_genome_list.py:104-114 | A guarded call succeeds exactly when the loop is done. Its value is the answer of the attempt that ended the loop: every earlier attempt raised a fault the loop retries. It fails with `NothingBound` exactly when every attempt was retried. A re-raised fault is one the loop does not retry. |
| Discovery.CollectAccessions | ncbi_data/get_genome_list.py:53-67 | The loop returns exactly the accessions of the records, and its total equals their number. Its GCF and GCA counters equal the number of accessions with each prefix, and together they never exceed the total. |
| Discovery.PrefixesDisjoint | ncbi_data/get_genome_list.py:58-61 | No accession counts both as `GCF_` and as `GCA_`. |
| Discovery.RequestedRecords | ncbi_data/get_genome_list.py:47-56 | The one request yields the first min(len, 1000) records of the dataset, in order. |
| Discovery.FirstPageOnly | ncbi_data/get_genome_list.py:47-56 | As written, a dataset larger than one page of 1000 yields only its first 1000 records. |
| Discovery.AllRecordsComplete | ncbi_data/get_genome_list.py:47-56 | Following the next-page tokens page by page recovers the whole dataset, in order. |
| Discovery.RecordsFromIsSuffix | ncbi_data/get_genome_list.py:47-56 | Reading from page p onwards yields exactly the dataset from record 1000·p onwards. |
| Records.HeaderShape | ncbi_data/get_genome_list.py:252-255 | The header has 30 pairwise distinct column names. |
| Records.Flags | ncbi_data/get_genome_list.py:287-297 | Exactly the five flag names are keys. Each flag is "true" iff it occurs in PropertyList, and "false" otherwise, whatever other properties are listed. |
| Records.SeqStats | ncbi_data/get_genome_list.py:299-310 | Exactly the six statistic names are keys. |
| Records.SeqStatsDefault | ncbi_data/get_genome_list.py:299-310 | A statistic that no Stat of its category with tag "all" gives stays "na". Stats of other tags or categories are ignored. |
| Records.SeqStatsLastWins | ncbi_data/get_genome_list.py:307-310 | When several Stats of a category carry tag "all", the last of them gives the value. |
| Records.SeqStatsAsWritten | ncbi_data/get_genome_list.py:307-310 | As written, the key set is again exactly the six statistic names. |
| Records.EmptyStatFreezes | ncbi_data/get_genome_list.py:308-310 | As written, a Stat with empty text followed by one with text "7" leaves the statistic empty. The corrected loop gives "7". |
| Records.SeqStatsAsWrittenAgrees | ncbi_data/get_genome_list.py:299-310 | When no Stat has empty text, the loop as written equals the corrected one, and no value is empty. |
| Records.Cells | ncbi_data/get_genome_list.py:322-326 | A row has exactly as many cells as the header has columns. |
| Records.CellsAligned | ncbi_data/get_genome_list.py:252-325 | Every cell of a written row lies under the header column named after its field. `Records.Column` maps each of the 30 column names to a field by name, independently of the order, so no two fields are swapped. |
| Records.StatColumnsAligned | ncbi_data/get_genome_list.py:322-325 | Columns 11 to 16, counted from 0, are the six statistics, each under the column of the same name. |
| Records.FlagColumnsAligned | ncbi_data/get_genome_list.py:322-325 | Columns 19 to 22, counted from 0, are the flags of the same name, and the `wgs` flag sits in column 23, under "WGS". |
| Records.RowStatCells | ncbi_data/get_genome_list.py:299-325 | In a row built from a summary, the cell under each statistic column is the statistics loop's value for that name. |
| Records.RowFlags | ncbi_data/get_genome_list.py:287-325 | In a row built from a summary (`Records.AssemblyRow`), each of the five flag columns is "true" exactly when its property is listed. The WGS column follows the `wgs` property. |
| Records.RowStat | ncbi_data/get_genome_list.py:299-325 | Each statistic column of a row is "na" unless a Stat of that category tags "all", in which case the last such Stat gives it (the corrected loop; see Left out). |
| Records.RowStatAsWritten | ncbi_data/get_genome_list.py:299-325 | When no Stat has empty text, each statistic column of a row is what the loop as written leaves, and it is never empty. |
| Enrichment.SraDocuments | ncbi_data/get_genome_list.py:200-222 | The SRA documents are fetched in uid order. The loop succeeds exactly when every fetch does, and then yields each uid's document. |
| Enrichment.RunsOf | ncbi_data/get_genome_list.py:226-233 | A run accession is collected from a document exactly when some non-empty `Runs` item of it lists that accession. |
| Enrichment.RunsOfAppend | ncbi_data/get_genome_list.py:226-233 | Runs are collected in item order: collecting distributes over concatenation. |
| Enrichment.PlatformsOf | ncbi_data/get_genome_list.py:226-241 | An SRA document contributes at most one platform per item. A platform is collected exactly when it is the first `<Platform>` body of some non-empty `ExpXml` item, and every such item contributes one. |
| Enrichment.RunsOfOne | ncbi_data/get_genome_list.py:224-233 | One item contributes all its run accessions, in order, when it is a non-empty `Runs` item, and nothing otherwise. With RunsOfAppend this fixes the collected list exactly. |
| Enrichment.PlatformsOfOne | ncbi_data/get_genome_list.py:224-241 | One item contributes its first `<Platform>` body when it is a non-empty `ExpXml` item with one, and nothing otherwise. |
| Enrichment.AllRuns | ncbi_data/get_genome_list.py:200-233 | A run accession is collected over the uids exactly when it is collected from one of their documents. |
| Enrichment.AllPlatforms | ncbi_data/get_genome_list.py:200-241 | A platform is collected over the uids exactly when it is collected from one of their documents. |
| Enrichment.SraInfo | ncbi_data/get_genome_list.py:195-245 | `get_sra_info` succeeds exactly when every uid's summary fetch does. A string is empty when nothing was collected; otherwise, for pieces free of `;`, splitting it at `;` gives back the collected runs or platforms. |
| Enrichment.PlatformsOfAppend | ncbi_data/get_genome_list.py:226-241 | Platforms are collected in item order: collecting distributes over concatenation. |
| Enrichment.RowsFor | ncbi_data/get_genome_list.py:261-326 | The rows of an accession's ids are in id order. The loop succeeds exactly when every id is described, and a failure is the failure of some id. |
| Enrichment.Enrich | ncbi_data/get_genome_list.py:257-326 | The run succeeds exactly when every accession resolves and every resolved id is described. It then yields one row per resolved id. |
| Enrichment.EnrichAppend | ncbi_data/get_genome_list.py:257-261 | The rows of two consecutive runs of accessions are the first run's rows, then the second's: accession-then-id order. |
| Enrichment.EnrichOne | ncbi_data/get_genome_list.py:259-261 | One accession contributes exactly the rows of its resolved ids. |
| Enrichment.AbortsOnUnresolved | ncbi_data/get_genome_list.py:257-259 | One accession whose id search fails aborts the whole report. |
| Enrichment.Linkage | ncbi_data/get_genome_list.py:312-320 | Without a BioSample accession SRA and Platform are empty and nothing is fetched. With one, the linkage fails exactly when the uid search fails or, with uids found, `get_sra_info` fails. Non-empty strings imply a BioSample with linked uids. |
| Enrichment.LinkageSentinels | ncbi_data/get_genome_list.py:312-320 | SRA and Platform are both empty without a BioSample accession or without linked SRA uids. |
| Enrichment.LinkageJoins | ncbi_data/get_genome_list.py:226-245 | With linked uids, SRA and Platform are the `;`-joins of the runs and platforms collected over the documents. Run accessions free of `;` split back out of the SRA string. |
| Enrichment.DescribeSentinels | ncbi_data/get_genome_list.py:283-322 | A row's BioprojectAccn is empty without GenBank BioProjects and the first one's accession otherwise. SRA and Platform are empty without a BioSample. The row keeps the summary's accession. |
| Enrichment.DescribeOutcome | ncbi_data/get_genome_list.py:263-322 | Describing an id fails with the summary fetch's failure, with `NoStatsBlock` when the summary has no Stats element, or when the linkage fails, and succeeds otherwise. The row then is the row built from the summary, its Stats block and the linkage's SRA and Platform strings. |
| Enrichment.DescribedRowContent | ncbi_data/get_genome_list.py:292-322 | In a described row, the cell under each statistic column is the statistics loop's value over the summary's Stats, and each flag is "true" exactly when the summary's PropertyList names it. |
| Enrichment.WriteReport | ncbi_data/get_genome_list.py:250-326 | On success, the report is the 30-column header followed by one line per resolved id: line i+1 holds the cells of the i-th row, in accession-then-id order, and every line has 30 fields. It succeeds exactly when every call does. |
| Text.Split | ncbi_data/tools.py:43 | `str.split` yields at least one piece, and no piece contains the separator. |
| Text.SplitJoin | ncbi_data/tools.py:43 | Joining pieces free of the separator and splitting again gives back the pieces. |
| Text.JoinSplit | ncbi_data/tools.py:43 | Splitting and joining again with the same separator gives back the string. |
| Text.Basename | ncbi_data/tools.py:76 | The basename is a suffix of the path with no `/`. |
| Text.BasenameFollowsSlash | ncbi_data/tools.py:76 | A basename shorter than its path is preceded by a `/`, so it is the whole last path component. |
| Text.BasenameOfJoin | ncbi_data/tools.py:104 | The basename of `os.path.join(dir, name)` is `name`, for a name without `/`. |
| Ingress.DownloadFromFtp | ncbi_data/tools.py:67-118 | A call fails its assertion exactly when some requested kind is invalid, and then nothing on disk changes (normalised check; see Left out). Otherwise directories and files only grow, and a list of paths gives a list of entries. Afterwards the directory of every path's accession exists, and no other directory was added. A file exists afterwards exactly when it existed before or one of the call's transfers fetched it from the server. Every entry that is not None names a file that exists. |
| Ingress.DownloadFromFtpAsWritten | ncbi_data/tools.py:67-118 | As written, a call fails its assertion exactly when the raw-argument check fails, and then nothing on disk changes. Otherwise directories and files only grow. Wherever the two checks agree, it behaves exactly as the normalised call. |
| Ingress.ExecuteGrows | ncbi_data/tools.py:27-33 | Transfers never remove a file. |
| Ingress.ExecuteFiles | ncbi_data/tools.py:27-33 | Afterwards a file exists exactly when it existed before, or some transfer fetched it from the server. |
| Ingress.EntriesExist | ncbi_data/tools.py:107-113 | Entry n, when it is not None, is transfer n's destination, and that file exists after the run. |
| Ingress.ExecuteEntry | ncbi_data/tools.py:107-113 | Entry n is the destination when that file existed before the call, or was fetched by transfer n or an earlier one, and None otherwise. A failed transfer raises nothing; its entry is None unless the file already existed. |
| Ingress.TransfersAt | ncbi_data/tools.py:74-104 | There are len(paths)·len(kinds) transfers. Transfer i·len(kinds)+j fetches kind j of path i: path-major, kinds in request order. |
| Ingress.LocalSuffixShape | ncbi_data/tools.py:83-101 | Every local suffix begins with `_` and contains no `/`. |
| Ingress.AccessionOfPlainName | ncbi_data/tools.py:42-44 | A file name with no `_` is its own accession, wherever the file lies. |
| Ingress.AccessionHasNoSlash | ncbi_data/tools.py:42-44 | An accession never contains `/`, so it names one directory level. |
| Ingress.SuffixesDistinct | ncbi_data/tools.py:83-101 | The five kinds have five different remote suffixes and five different local suffixes. |
| Ingress.OtherKindIsGff | ncbi_data/tools.py:83-101 | Any kind other than `gbk`, `faa`, `fna` and `transcript_fna` is fetched as `_genomic.gff.gz` and saved as `_genomic.gff3.gz`, as `gff` is. |
| Ingress.TransferLocalName | ncbi_data/tools.py:76-104 | A transfer writes the file named after the path's accession and the kind's local suffix. |
| Ingress.TransferRemoteName | ncbi_data/tools.py:76-103 | A transfer fetches, from within the FTP path, the file named after the path's basename and the kind's remote suffix. |
| Ingress.DistinctKindsDistinctFiles | ncbi_data/tools.py:83-104 | Two different valid kinds requested for one path are written to two different local files. |
| Ingress.AccessionIdempotent | ncbi_data/tools.py:42-44 | `get_accession` applied to an accession gives it back. |
| Ingress.AccessionOfName | ncbi_data/tools.py:42-44 | The accession of any path ending in `t0_t1_rest` is `t0_t1`. |
| Ingress.AccessionOfDestination | ncbi_data/tools.py:76-104 | The accession of a destination path equals the accession of its FTP path whenever the FTP basename has at least two `_` tokens. |
| Ingress.BareKindRejectedAsWritten | ncbi_data/tools.py:67-69 | As written, every valid kind passed as a bare string fails the assertion. The normalised check accepts it. |
| Ingress.EmptyKindAcceptedAsWritten | ncbi_data/tools.py:67-101 | As written, the empty string passes the assertion and is fetched as `gff`. The normalised check rejects it. |
| Ingress.ListsAgree | ncbi_data/tools.py:67-69 | For a list of kinds, the two checks, and the two calls, agree. |
| Ingress.ListedEntry | ncbi_data/tools.py:72-118 | For a list of paths the call returns all len(paths)·len(kinds) entries. Entry i·len(kinds)+j is the local path of kind j of path i when that file is present afterwards, else None. |
| Ingress.SingleEntry | ncbi_data/tools.py:115-116 | For a single path the call returns the first kind's entry. With no kinds it raises IndexError. |
| Ingress.DownloadTwice | ncbi_data/tools.py:79-113 | Repeating a call changes neither directories nor files, and reports again every file the first call reported. |
| GenomeDownload.PathOfRow | ncbi_data/get_genome_list.py:349-355 | A row yields a path iff it has a RefSeq or a GenBank path. RefSeq is preferred, and without it the GenBank path is used. |
| GenomeDownload.FtpLines | ncbi_data/get_genome_list.py:341-343 | In single-column mode, exactly the lines starting with `ftp://` are kept. |
| GenomeDownload.FtpPaths | ncbi_data/get_genome_list.py:337-359 | A single-column listing yields exactly its lines starting with `ftp://`. A table yields exactly the paths of its annotated rows, RefSeq preferred over GenBank. |
| GenomeDownload.FtpLinesAppend | ncbi_data/get_genome_list.py:343 | The single-column filter keeps the listing's order: it distributes over concatenation. |
| GenomeDownload.AnnotatedPaths | ncbi_data/get_genome_list.py:345-355 | In table mode, every path comes from an annotated row, and every annotated row with a path contributes it. |
| GenomeDownload.AnnotatedPathsAppend | ncbi_data/get_genome_list.py:349-355 | The table selection keeps row order: it distributes over concatenation. |
| GenomeDownload.Decimal | ncbi_data/get_genome_list.py:377 | `str` of a count is a non-empty string of decimal digits, with no leading zero except for the count 0 itself. |
| GenomeDownload.DecimalRoundTrip | ncbi_data/get_genome_list.py:377 | Reading the written count back gives the count. |
| GenomeDownload.SummaryLineParses | ncbi_data/get_genome_list.py:377 | A summary line splits at its comma into the accession and the count, for an accession without a comma. |
| GenomeDownload.Retrieved | ncbi_data/get_genome_list.py:373 | The count is the number of entries minus the number of None entries. It is 0 iff all are None, and full iff none is. |
| GenomeDownload.FetchOne | ncbi_data/get_genome_list.py:372 | A one-path call fails exactly when a kind is invalid. Otherwise it returns one entry per requested kind. |
| GenomeDownload.Fetches | ncbi_data/get_genome_list.py:370-373 | The loop's calls, one per path in order: fetch i is the one-path call on path i, made on the disk the earlier fetches left. It fails exactly when paths were selected and a kind is invalid. |
| GenomeDownload.RowsAsWritten | ncbi_data/get_genome_list.py:370-377 | As written, the summary loop completes exactly when every fetch returned its first kind's file. Otherwise it stops with AssertionError on an invalid kind, IndexError when no kind was requested, and TypeError when a first file is missing. |
| GenomeDownload.RowsAsWrittenContent | ncbi_data/get_genome_list.py:370-377 | When the loop as written completes, row i holds the accession read from fetch i's first file and fetch i's count of retrieved files, and the disk is the one the last fetch left. |
| GenomeDownload.FirstEntryIsFirstKind | ncbi_data/get_genome_list.py:372-375 | A present first entry is the local path of the first requested kind. |
| GenomeDownload.Rows | ncbi_data/get_genome_list.py:370-377 | The corrected summary loop fails only on an invalid kind. It gives one row per path: path i's accession and the count of files fetch i retrieved, at most len(kinds). The disk is the one the last fetch left. |
| GenomeDownload.SummaryFileParses | ncbi_data/get_genome_list.py:366-377 | Every summary line after the header splits at its comma into its row's accession and a digit string that reads back as its count, when the accession has no comma. |
| GenomeDownload.DownloadGenomeDataAsWritten | ncbi_data/get_genome_list.py:361-379 | As written, the summary is complete exactly when every fetch returned its first kind's file. It then holds the header and, on line i+1, the accession read from fetch i's first file and fetch i's count. Otherwise it stops with the error the loop as written raises. |
| GenomeDownload.DownloadGenomeData | ncbi_data/get_genome_list.py:361-379 | The corrected summary fails exactly when paths were selected and a kind is invalid. Otherwise it holds the header and, on line i+1, path i's accession and the count of files fetch i retrieved. |
| GenomeDownload.AsWrittenAgrees | ncbi_data/get_genome_list.py:375 | Whenever the loop as written completes and every basename has two tokens, it produces the corrected rows. |
| GenomeDownload.MissingFirstFileAborts | ncbi_data/get_genome_list.py:375 | As written, a missing first file stops the summary even though the second kind arrived. The corrected loop records one file. |
| GenomeDownload.NoKindsAborts | ncbi_data/get_genome_list.py:375 | As written, requesting no kinds stops the summary at the first path. The corrected loop completes. |

## Left out

- Transports are not modelled. HTTP through `requests` and Entrez, the JSON dump and reload, `time.sleep` (0.5 after a success, 15 on a retry, 15 every 100 accessions) and logging are left out. Responses are inputs, and the delays change no result.
- Parsing is not modelled. The parsing of the Entrez replies, the `Meta` markup and the SRA `ExpXml`/`Runs` texts (BeautifulSoup, ElementTree, regular expressions) is taken as already done. Stats are (category, tag, text) triples. SRA items carry their run accessions and `<Platform>` bodies.
- The `Entrez.read` that follows a search or summary outside its loop is folded into that call's script. A fault it raises propagates, as a non-retryable fault does in the model.
- Enrichment.Describe: a summary missing a key raises KeyError in the program. The model's summary always has every key, and the `FromType` field, read but unused, is omitted.
- Output files are not modelled. File writes, CSV quoting (fields are joined with `,` unescaped) and the partial report or summary left on disk when a run aborts are left out. The report is a sequence of string sequences, and the summary a sequence of lines.
- Listing files are not parsed. Reading them with pandas is left out: the listing is given as a single column of lines or as rows with the annotation flag and the two FTP path cells. A table without the expected columns raises KeyError, which is not modelled.
- Ingress.Execute: a transfer writes its destination whenever its source is on the server. The model does not check that the destination's directory exists, nor that directory paths differing only in a doubled `/` are one directory. It does not model a transfer that fails half-way and leaves a partial file.
- The returned paths are not gunzipped by the program either (the call is commented out). `gunzip`, `call` and `curl_ftp` are unused shell wrappers.
- `get_raw_assembly_summary` is unused. The logger setup, the command-line entry point, the one-line `ncbi_data.py` wrapper and the tests are outside the core.
- Text.Split: models `str.split` with a single-character separator, the only form the core uses.
- Records.RowStat: states the corrected statistics loop, which tests the category for membership. As written (get_genome_list.py:308), an empty Stat text freezes the statistic at "" (see Findings). Records.RowStatAsWritten ties the two when no text is empty. Records.AssemblyRow, Enrichment.Describe, Enrichment.Enrich and Enrichment.WriteReport are built on the corrected loop too.
- GenomeDownload.DownloadGenomeData: models the corrected loop, which takes the accession from the FTP path. As written, the loop reads it from the first returned file and can stop with TypeError or IndexError (see Findings). That behaviour is GenomeDownload.DownloadGenomeDataAsWritten.
- Ingress.DownloadFromFtp: applies the kind check to the normalised list of kinds. The assertion as written is in Ingress.DownloadFromFtpAsWritten. The two agree on every list of kinds (Ingress.ListsAgree) and differ on a bare string (see Findings).
- The summary file's location (`{outdir}/ncbi_genome_download_summary_{taxid}.csv`, get_genome_list.py:366) and the returned path are not modelled; the summary is returned as its lines.
- Ingress.DownloadFromFtp: `os.makedirs` also creates every missing parent directory, `dstdir` included. The model records only the per-accession directories.

## Findings

| source | as written | input that shows it | evidently intended | confidence | as-written member | corrected member |
|---|---|---|---|---|---|---|
| ncbi_data/tools.py:67 | The kind check iterates the raw `inquiries`, so a string is checked one character at a time. | `inquiries="gbk"` fails the assertion. `inquiries=""` passes and fetches the gff files. | Check the normalised list of kinds. | not executed; high | Ingress.AcceptedAsWritten, Ingress.DownloadFromFtpAsWritten, Ingress.BareKindRejectedAsWritten, Ingress.EmptyKindAcceptedAsWritten | Ingress.Accepted, Ingress.DownloadFromFtp, Ingress.ListsAgree |
| ncbi_data/get_genome_list.py:375 | The summary reads the accession from the first returned path. | The first kind's file is missing: `basename(None)` raises TypeError. `file_types=[]` raises IndexError. | Take the accession from the FTP path. | not executed; high | GenomeDownload.RowsAsWritten, GenomeDownload.DownloadGenomeDataAsWritten, GenomeDownload.MissingFirstFileAborts, GenomeDownload.NoKindsAborts | GenomeDownload.Rows, GenomeDownload.DownloadGenomeData, GenomeDownload.AsWrittenAgrees |
| ncbi_data/get_genome_list.py:47-56 | Discovery makes one request with `page_size` 1000 and ignores the next-page token. | A taxon with 1001 current assemblies yields 1000 accessions. | Follow the page tokens until none is returned. | not executed; medium | Discovery.RequestedRecords, Discovery.FirstPageOnly | Discovery.AllRecords, Discovery.AllRecordsComplete |
| ncbi_data/get_genome_list.py:308 | A statistic is updated only while its current value is truthy, so an empty Stat text freezes it. | Two `contig_count` Stats tagged `all`, with texts "" then "7", give "". | Test membership of the category. | not executed; medium | Records.SeqStatsAsWritten, Records.EmptyStatFreezes | Records.SeqStats, Records.SeqStatsLastWins, Records.SeqStatsAsWrittenAgrees, Records.RowStatAsWritten |

=== FILE: discovery.dfy ===
/**
 * Accession discovery: one request to the taxon-scoped dataset report
 * endpoint, then every returned record's accession, in response order,
 * with counts of RefSeq (`GCF_`) and GenBank (`GCA_`) accessions.
 */
module Discovery {
  import opened Text

  /** The `page_size` the request asks for. */
  const PageSize: nat := 1000

  /** One entry of the endpoint's `reports` list. */
  datatype ReportRecord = ReportRecord(accession: string)

  /** The accession of every record, in order: no deduplication, no filtering. */
  function AccessionsOf(records: seq<ReportRecord>): (accs: seq<string>)
    ensures |accs| == |records|
    ensures forall i :: 0 <= i < |records| ==> accs[i] == records[i].accession
  {
    seq(|records|, i requires 0 <= i < |records| => records[i].accession)
  }

  /** How many of `accs` start with `prefix`. */
  function CountWithPrefix(accs: seq<string>, prefix: string): nat
    decreases |accs|
  {
    if |accs| == 0 then 0
    else CountWithPrefix(accs[..|accs| - 1], prefix) + (if StartsWith(accs[|accs| - 1], prefix) then 1 else 0)
  }

  /** No accession is counted both as RefSeq and as GenBank. */
  lemma PrefixesDisjoint(s: string)
    ensures !(StartsWith(s, "GCF_") && StartsWith(s, "GCA_"))
  {
    assert StartsWith(s, "GCF_") ==> s[2] == "GCF_"[2] == 'F';
    assert StartsWith(s, "GCA_") ==> s[2] == "GCA_"[2] == 'A';
  }

  /**
   * The loop over the response's records: every accession is kept, in
   * order, and counted under `GCF_`, else under `GCA_`, else only logged.
   */
  method CollectAccessions(records: seq<ReportRecord>) returns (accs: seq<string>, gcf: nat, gca: nat, total: nat)
    ensures accs == AccessionsOf(records)
    ensures total == |accs| == |records|
    ensures gcf == CountWithPrefix(accs, "GCF_")
    ensures gca == CountWithPrefix(accs, "GCA_")
    ensures gcf + gca <= total
  {
    accs, gcf, gca, total := [], 0, 0, 0;
    for i := 0 to |records|
      invariant accs == AccessionsOf(records[..i])
      invariant total == i
      invariant gcf == CountWithPrefix(accs, "GCF_")
      invariant gca == CountWithPrefix(accs, "GCA_")
      invariant gcf + gca <= total
    {
      var acc := records[i].accession;
      PrefixesDisjoint(acc);
      if StartsWith(acc, "GCF_") {
        gcf := gcf + 1;
      } else if StartsWith(acc, "GCA_") {
        gca := gca + 1;
      }
      total := total + 1;
      assert (accs + [acc])[..|accs|] == accs;
      accs := accs + [acc];
      assert records[..i + 1] == records[..i] + [records[i]];
    }
    assert records[..|records|] == records;
  }

  /** The records the endpoint returns for page number `page` of `dataset`. */
  function Page(dataset: seq<ReportRecord>, page: nat): (r: seq<ReportRecord>)
    ensures |r| <= PageSize
  {
    if page * PageSize >= |dataset| then []
    else if (page + 1) * PageSize >= |dataset| then dataset[page * PageSize..]
    else dataset[page * PageSize..(page + 1) * PageSize]
  }

  /** Whether the response to page `page` carries a token for a further page. */
  predicate HasNextPage(dataset: seq<ReportRecord>, page: nat) {
    (page + 1) * PageSize < |dataset|
  }

  /** The records the program sees: the single request carries no page token, so only the first page. */
  function RequestedRecords(dataset: seq<ReportRecord>): (r: seq<ReportRecord>)
    ensures |r| == if |dataset| < PageSize then |dataset| else PageSize
    ensures r == dataset[..|r|]
  {
    Page(dataset, 0)
  }

  /** A dataset larger than one page loses every record past the first page. */
  lemma FirstPageOnly(dataset: seq<ReportRecord>)
    requires |dataset| > PageSize
    ensures RequestedRecords(dataset) == dataset[..PageSize]
    ensures |AccessionsOf(RequestedRecords(dataset))| < |dataset|
  {
  }

  /** The records of page `page` and of every page after it, following the next-page tokens. */
  function RecordsFrom(dataset: seq<ReportRecord>, page: nat): seq<ReportRecord>
    decreases |dataset| - page * PageSize
  {
    Page(dataset, page) + (if HasNextPage(dataset, page) then RecordsFrom(dataset, page + 1) else [])
  }

  /** Every record of the dataset, fetched page by page. */
  function AllRecords(dataset: seq<ReportRecord>): seq<ReportRecord> {
    RecordsFrom(dataset, 0)
  }

  lemma {:induction false} RecordsFromIsSuffix(dataset: seq<ReportRecord>, page: nat)
    requires page * PageSize <= |dataset|
    ensures RecordsFrom(dataset, page) == dataset[page * PageSize..]
    decreases |dataset| - page * PageSize
  {
    if HasNextPage(dataset, page) {
      RecordsFromIsSuffix(dataset, page + 1);
      assert dataset[page * PageSize..] == dataset[page * PageSize..(page + 1) * PageSize] + dataset[(page + 1) * PageSize..];
    }
  }

  /** Following the page tokens recovers the whole dataset, in order. */
  lemma AllRecordsComplete(dataset: seq<ReportRecord>)
    ensures AllRecords(dataset) == dataset
  {
    RecordsFromIsSuffix(dataset, 0);
  }
}

=== FILE: download.dfy ===
/**
 * Genome download: choosing the FTP base paths from an assembly listing,
 * fetching every requested kind for each path, and the per-path summary of
 * how many files arrived.
 */
module GenomeDownload {
  import opened Results
  import opened Text
  import opened Ingress

  /** One row of a tabular listing: the annotation flag and the two FTP columns (None for an empty cell). */
  datatype ListingRow = ListingRow(accession: string, hasAnnotation: bool, ftpRefSeq: Option<string>, ftpGenBank: Option<string>)

  /** A listing file: one column of paths, or a table with named columns. */
  datatype Listing = SingleColumn(lines: seq<string>) | Table(rows: seq<ListingRow>)

  /** The path a table row contributes: RefSeq when present, else GenBank, else none. */
  function PathOfRow(row: ListingRow): (p: Option<string>)
    ensures p.Some? <==> row.ftpRefSeq.Some? || row.ftpGenBank.Some?
    ensures row.ftpRefSeq.Some? ==> p == row.ftpRefSeq
    ensures row.ftpRefSeq.None? ==> p == row.ftpGenBank
  {
    if row.ftpRefSeq.Some? then row.ftpRefSeq else row.ftpGenBank
  }

  /** The lines of a single-column listing that start with `ftp://`, in order. */
  function FtpLines(lines: seq<string>): (paths: seq<string>)
    ensures |paths| <= |lines|
    ensures forall i :: 0 <= i < |paths| ==> StartsWith(paths[i], "ftp://") && paths[i] in lines
    ensures forall x :: x in lines && StartsWith(x, "ftp://") ==> x in paths
    decreases |lines|
  {
    if |lines| == 0 then []
    else
      var rest := FtpLines(lines[1..]);
      assert forall x :: x in lines[1..] ==> x in lines;
      if StartsWith(lines[0], "ftp://") then [lines[0]] + rest else rest
  }

  /** The paths of the annotated rows of a table, in order. */
  function AnnotatedPaths(rows: seq<ListingRow>): (paths: seq<string>)
    ensures |paths| <= |rows|
    ensures forall i :: 0 <= i < |paths| ==>
      exists row :: row in rows && row.hasAnnotation && PathOfRow(row) == Some(paths[i])
    ensures forall row :: row in rows && row.hasAnnotation && PathOfRow(row).Some? ==> PathOfRow(row).value in paths
    decreases |rows|
  {
    if |rows| == 0 then []
    else
      var rest := AnnotatedPaths(rows[1..]);
      assert forall row :: row in rows[1..] ==> row in rows;
      var row := rows[0];
      if row.hasAnnotation && PathOfRow(row).Some? then [PathOfRow(row).value] + rest else rest
  }

  /** `get_ftp_paths`. */
  function FtpPaths(listing: Listing): (paths: seq<string>)
    ensures listing.SingleColumn? ==>
      forall x :: x in paths <==> x in listing.lines && StartsWith(x, "ftp://")
    ensures listing.Table? ==>
      forall x :: x in paths <==> exists row :: row in listing.rows && row.hasAnnotation && PathOfRow(row) == Some(x)
  {
    match listing
    case SingleColumn(lines) => FtpLines(lines)
    case Table(rows) => AnnotatedPaths(rows)
  }

  /** Filtering a listing distributes over concatenation: the order of the listing is kept. */
  lemma {:induction false} FtpLinesAppend(a: seq<string>, b: seq<string>)
    ensures FtpLines(a + b) == FtpLines(a) + FtpLines(b)
    decreases |a|
  {
    if |a| > 0 {
      assert (a + b)[1..] == a[1..] + b;
      FtpLinesAppend(a[1..], b);
    } else {
      assert a + b == b;
    }
  }

  lemma {:induction false} AnnotatedPathsAppend(a: seq<ListingRow>, b: seq<ListingRow>)
    ensures AnnotatedPaths(a + b) == AnnotatedPaths(a) + AnnotatedPaths(b)
    decreases |a|
  {
    if |a| > 0 {
      assert (a + b)[1..] == a[1..] + b;
      AnnotatedPathsAppend(a[1..], b);
    } else {
      assert a + b == b;
    }
  }

  /** The decimal digits of `n`, as `str(n)` writes them. */
  function Decimal(n: nat): (s: string)
    ensures |s| >= 1
    ensures forall i :: 0 <= i < |s| ==> '0' <= s[i] <= '9'
    ensures s[0] == '0' ==> n == 0 && |s| == 1
    decreases n
  {
    if n < 10 then [Digit(n)] else Decimal(n / 10) + [Digit(n % 10)]
  }

  function Digit(d: nat): char
    requires d < 10
  {
    ('0' as int + d) as char
  }

  /** The value of a string of decimal digits. */
  function ParseDecimal(s: string): nat
    requires forall i :: 0 <= i < |s| ==> '0' <= s[i] <= '9'
    decreases |s|
  {
    if |s| == 0 then 0
    else 10 * ParseDecimal(s[..|s| - 1]) + (s[|s| - 1] as int - '0' as int)
  }

  lemma {:induction false} DecimalRoundTrip(n: nat)
    ensures ParseDecimal(Decimal(n)) == n
    decreases n
  {
    if n >= 10 {
      DecimalRoundTrip(n / 10);
      var s := Decimal(n);
      assert s[..|s| - 1] == Decimal(n / 10);
    }
  }

  /** One summary row: the accession and the number of files retrieved for it. */
  datatype SummaryRow = SummaryRow(accession: string, files: nat)

  const SummaryHeader: string := "accession,downloaded_files"

  /** The text of one summary row. */
  function SummaryLine(row: SummaryRow): string {
    row.accession + "," + Decimal(row.files)
  }

  /** A summary line splits at its comma back into the row, when the accession has no comma. */
  lemma SummaryLineParses(row: SummaryRow)
    requires ',' !in row.accession
    ensures Split(SummaryLine(row), ',') == [row.accession, Decimal(row.files)]
    ensures ParseDecimal(Decimal(row.files)) == row.files
  {
    var digits := Decimal(row.files);
    assert ',' !in digits by {
      assert forall i :: 0 <= i < |digits| ==> digits[i] != ',';
    }
    assert SummaryLine(row) == row.accession + [','] + digits;
    SplitCons(row.accession, ',', digits);
    SplitNoSep(digits, ',');
    DecimalRoundTrip(row.files);
  }

  /** Why a summary could not be completed. */
  datatype DownloadError =
    | KindRejected      // a requested kind is not valid (AssertionError)
    | NoFirstEntry      // no kind was requested, so there is no first entry (IndexError)
    | FirstFileMissing  // the first kind's file was not retrieved (TypeError on None)

  /** The number of entries that name a retrieved file. */
  function Retrieved(entries: seq<Option<string>>): (n: nat)
    ensures n <= |entries|
    ensures n == 0 <==> forall i :: 0 <= i < |entries| ==> entries[i].None?
    ensures n == |entries| <==> forall i :: 0 <= i < |entries| ==> entries[i].Some?
    ensures n == |entries| - multiset(entries)[None]
    decreases |entries|
  {
    if |entries| == 0 then 0
    else
      var rest := Retrieved(entries[1..]);
      assert forall i :: 1 <= i < |entries| ==> entries[i] == entries[1..][i - 1];
      assert entries == [entries[0]] + entries[1..];
      (if entries[0].Some? then 1 else 0) + rest
  }

  /** The entries and the disk after fetching every kind of one path. */
  datatype Fetch = Fetch(entries: seq<Option<string>>, disk: Disk)

  /** One call of `download_from_ftp` with a one-element list of paths. */
  function FetchOne(ftppath: string, kinds: seq<string>, outdir: string, disk: Disk, server: set<string>): (r: Result<Fetch, DownloadError>)
    ensures r.Err? <==> !Accepted(KindList(kinds))
    ensures r.Err? ==> r.error == KindRejected
    ensures r.Ok? ==> |r.value.entries| == |kinds|
  {
    var d := DownloadFromFtp(PathList([ftppath]), KindList(kinds), outdir, disk, server);
    if d.returned == AssertionFailed then Err(KindRejected)
    else
      GridCount([ftppath], kinds, (p, k) => TransferFor(p, k, outdir));
      Ok(Fetch(d.returned.entries, d.disk))
  }

  /**
   * Every path fetched in turn, as the summary loop calls `download_from_ftp`:
   * each call sees the disk the previous one left behind.
   */
  function Fetches(paths: seq<string>, kinds: seq<string>, outdir: string, disk: Disk, server: set<string>): (r: Result<seq<Fetch>, DownloadError>)
    ensures r.Err? <==> |paths| > 0 && !Accepted(KindList(kinds))
    ensures r.Err? ==> r.error == KindRejected
    ensures r.Ok? ==> |r.value| == |paths|
    ensures r.Ok? ==> forall i :: 0 <= i < |r.value| ==> |r.value[i].entries| == |kinds|
    ensures r.Ok? ==> forall i :: 0 <= i < |r.value| ==>
      r.value[i] == FetchOne(paths[i], kinds, outdir, DiskAfter(r.value, i, disk), server).value
    decreases |paths|
  {
    if |paths| == 0 then Ok([])
    else
      var fetched :- FetchOne(paths[0], kinds, outdir, disk, server);
      // The kinds were accepted for the first path, so they are for every other.
      var rest := Fetches(paths[1..], kinds, outdir, fetched.disk, server);
      assert forall i :: 1 <= i < |paths| ==> paths[i] == paths[1..][i - 1];
      assert ([fetched] + rest.value)[1..] == rest.value;
      Ok([fetched] + rest.value)
  }

  /** Fetching a list of paths is fetching the first, then the rest on the disk it left. */
  lemma FetchesCons(paths: seq<string>, kinds: seq<string>, outdir: string, disk: Disk, server: set<string>)
    requires |paths| > 0 && Accepted(KindList(kinds))
    ensures
      var first := FetchOne(paths[0], kinds, outdir, disk, server).value;
      Fetches(paths, kinds, outdir, disk, server).value == [first] + Fetches(paths[1..], kinds, outdir, first.disk, server).value
  {
  }

  /** The disk after the first `n` fetches, starting from `disk`. */
  function DiskAfter(fetches: seq<Fetch>, n: nat, disk: Disk): Disk
    requires n <= |fetches|
    decreases n
  {
    if n == 0 then disk else DiskAfter(fetches[1..], n - 1, fetches[0].disk)
  }

  /** The disk after the last fetch. */
  function LastDisk(fetches: seq<Fetch>, disk: Disk): Disk {
    DiskAfter(fetches, |fetches|, disk)
  }

  /** Every fetch returned its first kind's file, which is where the summary loop reads the accession. */
  predicate FirstKindsArrived(fetches: seq<Fetch>) {
    forall i :: 0 <= i < |fetches| ==> |fetches[i].entries| > 0 && fetches[i].entries[0].Some?
  }

  lemma LastDiskCons(first: Fetch, rest: seq<Fetch>, disk: Disk)
    ensures LastDisk([first] + rest, disk) == LastDisk(rest, first.disk)
  {
  }

  lemma FirstKindsArrivedCons(first: Fetch, rest: seq<Fetch>)
    ensures FirstKindsArrived([first] + rest) <==>
      |first.entries| > 0 && first.entries[0].Some? && FirstKindsArrived(rest)
  {
    var all := [first] + rest;
    assert all[0] == first;
    assert forall i :: 0 <= i < |rest| ==> all[i + 1] == rest[i];
    if |first.entries| > 0 && first.entries[0].Some? && FirstKindsArrived(rest) {
      forall i | 0 <= i < |all|
        ensures |all[i].entries| > 0 && all[i].entries[0].Some?
      {
        if i > 0 {
          assert all[i] == rest[i - 1];
        }
      }
    }
  }

  /** The accession as the summary loop reads it: from the first returned path. */
  function FirstAccession(entries: seq<Option<string>>): (r: Result<string, DownloadError>)
    ensures r.Ok? <==> |entries| > 0 && entries[0].Some?
  {
    if |entries| == 0 then Err(NoFirstEntry)
    else if entries[0].None? then Err(FirstFileMissing)
    else Ok(Accession(entries[0].value))
  }

  /** The summary rows with the accession read from the first returned path, as the program does. */
  function RowsAsWritten(paths: seq<string>, kinds: seq<string>, outdir: string, disk: Disk, server: set<string>): (r: Result<(seq<SummaryRow>, Disk), DownloadError>)
    ensures
      var fetches := Fetches(paths, kinds, outdir, disk, server);
      r.Ok? <==> fetches.Ok? && FirstKindsArrived(fetches.value)
    ensures
      var fetches := Fetches(paths, kinds, outdir, disk, server);
      r.Err? ==> r.error == (if fetches.Err? then KindRejected else if |kinds| == 0 then NoFirstEntry else FirstFileMissing)
    decreases |paths|
  {
    if |paths| == 0 then Ok(([], disk))
    else
      var fetched :- FetchOne(paths[0], kinds, outdir, disk, server);
      FetchesCons(paths, kinds, outdir, disk, server);
      FirstKindsArrivedCons(fetched, Fetches(paths[1..], kinds, outdir, fetched.disk, server).value);
      var accession :- FirstAccession(fetched.entries);
      var rest :- RowsAsWritten(paths[1..], kinds, outdir, fetched.disk, server);
      Ok(([SummaryRow(accession, Retrieved(fetched.entries))] + rest.0, rest.1))
  }

  /**
   * Row `i` holds the accession read from the first file of fetch `i` and
   * the number of files that fetch retrieved.
   */
  predicate RowsMatch(rows: seq<SummaryRow>, fetches: seq<Fetch>) {
    && |rows| == |fetches|
    && forall i :: 0 <= i < |fetches| ==>
      && |fetches[i].entries| > 0 && fetches[i].entries[0].Some?
      && rows[i] == SummaryRow(Accession(fetches[i].entries[0].value), Retrieved(fetches[i].entries))
  }

  lemma RowsMatchCons(row: SummaryRow, rows: seq<SummaryRow>, fetch: Fetch, fetches: seq<Fetch>)
    requires |fetch.entries| > 0 && fetch.entries[0].Some?
    requires row == SummaryRow(Accession(fetch.entries[0].value), Retrieved(fetch.entries))
    requires RowsMatch(rows, fetches)
    ensures RowsMatch([row] + rows, [fetch] + fetches)
  {
    var all, allRows := [fetch] + fetches, [row] + rows;
    forall i | 0 <= i < |all|
      ensures && |all[i].entries| > 0 && all[i].entries[0].Some?
              && allRows[i] == SummaryRow(Accession(all[i].entries[0].value), Retrieved(all[i].entries))
    {
      if i > 0 {
        assert all[i] == fetches[i - 1] && allRows[i] == rows[i - 1];
      }
    }
  }

  /**
   * When the summary loop as written completes, its rows match the fetches
   * one for one, and the disk is the one the last fetch left.
   */
  lemma {:induction false} RowsAsWrittenContent(paths: seq<string>, kinds: seq<string>, outdir: string, disk: Disk, server: set<string>)
    ensures
      var r := RowsAsWritten(paths, kinds, outdir, disk, server);
      var fetches := Fetches(paths, kinds, outdir, disk, server);
      r.Ok? ==> fetches.Ok? && RowsMatch(r.value.0, fetches.value) && r.value.1 == LastDisk(fetches.value, disk)
    decreases |paths|
  {
    var r := RowsAsWritten(paths, kinds, outdir, disk, server);
    if |paths| > 0 && r.Ok? {
      var fetched := FetchOne(paths[0], kinds, outdir, disk, server).value;
      var tail := Fetches(paths[1..], kinds, outdir, fetched.disk, server).value;
      var fetches := Fetches(paths, kinds, outdir, disk, server).value;
      FetchesCons(paths, kinds, outdir, disk, server);
      assert fetches == [fetched] + tail;
      assert FirstKindsArrived(fetches);
      FirstKindsArrivedCons(fetched, tail);
      assert FirstAccession(fetched.entries) == Ok(Accession(fetched.entries[0].value));
      assert RowsAsWritten(paths[1..], kinds, outdir, fetched.disk, server).Ok?;
      var rest := RowsAsWritten(paths[1..], kinds, outdir, fetched.disk, server).value;
      var first := SummaryRow(Accession(fetched.entries[0].value), Retrieved(fetched.entries));
      assert r.value == ([first] + rest.0, rest.1);
      RowsAsWrittenContent(paths[1..], kinds, outdir, fetched.disk, server);
      RowsMatchCons(first, rest.0, fetched, tail);
      LastDiskCons(fetched, tail, disk);
    }
  }

  /** The summary rows with the accession taken from the FTP path itself. */
  function Rows(paths: seq<string>, kinds: seq<string>, outdir: string, disk: Disk, server: set<string>): (r: Result<(seq<SummaryRow>, Disk), DownloadError>)
    ensures r.Err? <==> |paths| > 0 && !Accepted(KindList(kinds))
    ensures r.Err? ==> r.error == KindRejected
    ensures r.Ok? ==> |r.value.0| == |paths|
    ensures r.Ok? ==> forall i :: 0 <= i < |paths| ==>
      r.value.0[i].accession == Accession(paths[i]) && r.value.0[i].files <= |kinds|
    ensures
      var fetches := Fetches(paths, kinds, outdir, disk, server);
      r.Ok? ==> (
        && fetches.Ok? && r.value.1 == LastDisk(fetches.value, disk)
        && forall i :: 0 <= i < |paths| ==> r.value.0[i].files == Retrieved(fetches.value[i].entries))
  {
    var fetches :- Fetches(paths, kinds, outdir, disk, server);
    Ok((seq(|paths|, i requires 0 <= i < |paths| => SummaryRow(Accession(paths[i]), Retrieved(fetches[i].entries))),
        LastDisk(fetches, disk)))
  }

  /** The summary file: the header, then one line per path. */
  function SummaryFile(rows: seq<SummaryRow>): (lines: seq<string>)
    ensures |lines| == |rows| + 1 && lines[0] == SummaryHeader
    ensures forall i :: 0 <= i < |rows| ==> lines[i + 1] == SummaryLine(rows[i])
  {
    [SummaryHeader] + seq(|rows|, i requires 0 <= i < |rows| => SummaryLine(rows[i]))
  }

  /** Every line after the header reads back as its row, when no accession holds a comma. */
  lemma SummaryFileParses(rows: seq<SummaryRow>, i: nat)
    requires i < |rows| && ',' !in rows[i].accession
    ensures
      var fields := Split(SummaryFile(rows)[i + 1], ',');
      && |fields| == 2 && fields[0] == rows[i].accession
      && (forall j :: 0 <= j < |fields[1]| ==> '0' <= fields[1][j] <= '9')
      && ParseDecimal(fields[1]) == rows[i].files
  {
    SummaryLineParses(rows[i]);
  }

  /**
   * `download_genome_data` as written: the summary lines and the disk
   * afterwards, or the exception that stops the loop.
   */
  function DownloadGenomeDataAsWritten(listing: Listing, outdir: string, kinds: seq<string>, disk: Disk, server: set<string>): (r: Result<(seq<string>, Disk), DownloadError>)
    ensures
      var fetches := Fetches(FtpPaths(listing), kinds, outdir, disk, server);
      r.Ok? <==> fetches.Ok? && FirstKindsArrived(fetches.value)
    ensures
      var fetches := Fetches(FtpPaths(listing), kinds, outdir, disk, server);
      r.Err? ==> r.error == (if fetches.Err? then KindRejected else if |kinds| == 0 then NoFirstEntry else FirstFileMissing)
    ensures
      var paths := FtpPaths(listing);
      var fetches := Fetches(paths, kinds, outdir, disk, server);
      r.Ok? ==> (
        && fetches.Ok? && |r.value.0| == 1 + |paths| && r.value.0[0] == SummaryHeader
        && forall i :: 0 <= i < |paths| ==>
          && |fetches.value[i].entries| > 0 && fetches.value[i].entries[0].Some?
          && r.value.0[i + 1] == SummaryLine(SummaryRow(Accession(fetches.value[i].entries[0].value), Retrieved(fetches.value[i].entries))))
  {
    RowsAsWrittenContent(FtpPaths(listing), kinds, outdir, disk, server);
    var done :- RowsAsWritten(FtpPaths(listing), kinds, outdir, disk, server);
    Ok((SummaryFile(done.0), done.1))
  }

  /** `download_genome_data` with the accession taken from each FTP path. */
  function DownloadGenomeData(listing: Listing, outdir: string, kinds: seq<string>, disk: Disk, server: set<string>): (r: Result<(seq<string>, Disk), DownloadError>)
    ensures r.Err? <==> |FtpPaths(listing)| > 0 && !Accepted(KindList(kinds))
    ensures r.Err? ==> r.error == KindRejected
    ensures
      var paths := FtpPaths(listing);
      var fetches := Fetches(paths, kinds, outdir, disk, server);
      r.Ok? ==> (
        && fetches.Ok? && |r.value.0| == 1 + |paths| && r.value.0[0] == SummaryHeader
        && forall i :: 0 <= i < |paths| ==>
          r.value.0[i + 1] == SummaryLine(SummaryRow(Accession(paths[i]), Retrieved(fetches.value[i].entries))))
  {
    var done :- Rows(FtpPaths(listing), kinds, outdir, disk, server);
    Ok((SummaryFile(done.0), done.1))
  }

  /** The first entry of a one-path fetch, when present, is the local path of the first kind. */
  lemma FirstEntryIsFirstKind(ftppath: string, kinds: seq<string>, outdir: string, disk: Disk, server: set<string>)
    requires FetchOne(ftppath, kinds, outdir, disk, server).Ok?
    requires |kinds| > 0
    ensures
      var entries := FetchOne(ftppath, kinds, outdir, disk, server).value.entries;
      entries[0].Some? ==> entries[0].value == TransferFor(ftppath, kinds[0], outdir).dst
  {
    ListedEntry([ftppath], kinds, outdir, disk, server, 0, 0);
  }

  /**
   * Whenever the summary loop as written completes, and every FTP basename
   * has at least two `_`-separated tokens, it produces what the corrected loop produces.
   */
  lemma AsWrittenAgrees(paths: seq<string>, kinds: seq<string>, outdir: string, disk: Disk, server: set<string>)
    requires forall i :: 0 <= i < |paths| ==> |Split(Basename(paths[i]), '_')| >= 2
    ensures RowsAsWritten(paths, kinds, outdir, disk, server).Ok? ==>
      RowsAsWritten(paths, kinds, outdir, disk, server) == Rows(paths, kinds, outdir, disk, server)
  {
    var written := RowsAsWritten(paths, kinds, outdir, disk, server);
    RowsAsWrittenContent(paths, kinds, outdir, disk, server);
    if written.Ok? {
      var fetches := Fetches(paths, kinds, outdir, disk, server).value;
      var rows := Rows(paths, kinds, outdir, disk, server);
      forall i | 0 <= i < |paths|
        ensures written.value.0[i] == rows.value.0[i]
      {
        var before := DiskAfter(fetches, i, disk);
        assert fetches[i] == FetchOne(paths[i], kinds, outdir, before, server).value;
        FirstEntryIsFirstKind(paths[i], kinds, outdir, before, server);
        AccessionOfDestination(paths[i], kinds[0], outdir);
      }
      assert written.value.0 == rows.value.0;
    }
  }

  /** With only the second of two kinds on the server, a one-path fetch misses the first kind... */
  lemma FirstKindMissing(ftppath: string, outdir: string)
    ensures
      var fna := TransferFor(ftppath, "fna", outdir);
      FetchOne(ftppath, ["gbk", "fna"], outdir, Disk({}, {}), {fna.src}).value.entries[0] == None
  {
    var kinds := ["gbk", "fna"];
    var gbk := TransferFor(ftppath, "gbk", outdir);
    var fna := TransferFor(ftppath, "fna", outdir);
    var server := {fna.src};
    assert gbk.src !in server by {
      assert |gbk.src| != |fna.src|;
    }
    assert Accepted(KindList(kinds));
    ListedEntry([ftppath], kinds, outdir, Disk({}, {}), server, 0, 0);
    assert !FetchedBefore(Transfers([ftppath], kinds, outdir), server, 1, gbk.dst);
  }

  /** ...and retrieves the second. */
  lemma SecondKindArrives(ftppath: string, outdir: string)
    ensures
      var fna := TransferFor(ftppath, "fna", outdir);
      FetchOne(ftppath, ["gbk", "fna"], outdir, Disk({}, {}), {fna.src}).value.entries[1] == Some(fna.dst)
  {
    var kinds := ["gbk", "fna"];
    assert Accepted(KindList(kinds));
    var fna := TransferFor(ftppath, "fna", outdir);
    var server := {fna.src};
    var jobs := Transfers([ftppath], kinds, outdir);
    ListedEntry([ftppath], kinds, outdir, Disk({}, {}), server, 0, 1);
    assert FetchedBefore(jobs, server, 2, fna.dst) by {
      assert jobs[1] == fna;
    }
  }

  /**
   * As written, a path whose first requested file is missing on the server
   * stops the summary with a TypeError, even though a later kind arrived;
   * the corrected loop records one retrieved file for it.
   */
  lemma MissingFirstFileAborts(ftppath: string, outdir: string)
    ensures
      var kinds := ["gbk", "fna"];
      var server := {TransferFor(ftppath, "fna", outdir).src};
      var empty := Disk({}, {});
      && RowsAsWritten([ftppath], kinds, outdir, empty, server) == Err(FirstFileMissing)
      && Rows([ftppath], kinds, outdir, empty, server).Ok?
      && Rows([ftppath], kinds, outdir, empty, server).value.0 == [SummaryRow(Accession(ftppath), 1)]
  {
    var kinds := ["gbk", "fna"];
    var fna := TransferFor(ftppath, "fna", outdir);
    var server := {fna.src};
    var empty := Disk({}, {});
    assert Accepted(KindList(kinds));
    FirstKindMissing(ftppath, outdir);
    SecondKindArrives(ftppath, outdir);
    var entries := FetchOne(ftppath, kinds, outdir, empty, server).value.entries;
    assert entries == [None, Some(fna.dst)];
    var fetches := Fetches([ftppath], kinds, outdir, empty, server).value;
    assert fetches[0].entries == entries;
    assert !FirstKindsArrived(fetches);
    assert Retrieved(entries) == 1;
  }

  /** As written, requesting no kinds stops the summary at the first path with an IndexError. */
  lemma NoKindsAborts(paths: seq<string>, outdir: string, disk: Disk, server: set<string>)
    requires |paths| > 0
    ensures RowsAsWritten(paths, [], outdir, disk, server) == Err(NoFirstEntry)
    ensures Rows(paths, [], outdir, disk, server).Ok?
  {
    assert Accepted(KindList([]));
  }
}

=== FILE: enrichment.dfy ===
/**
 * The metadata enrichment pipeline behind the assembly report: for each
 * accession, resolve its internal ids; for each id, fetch the summary,
 * discover the linked SRA runs and platforms, and assemble one row. Every
 * remote call goes through the bounded retry loop, and any failure that
 * leaves it aborts the whole run.
 */
module Enrichment {
  import opened Results
  import opened Text
  import opened RetryLoop
  import opened Records

  /**
   * One `<Item>` of an SRA summary document: its `Name` attribute, its text,
   * and what the pattern extraction finds in that text (the `acc` of every
   * `<Run .../>`, and every `<Platform ...>` body).
   */
  datatype SraItem = SraItem(name: string, text: string, runAccessions: seq<string>, platformMatches: seq<string>)

  /**
   * The remote database, as the scripted answers to each request. A
   * request is identified by the term or id it carries.
   */
  datatype Remote = Remote(
    assemblySearch: string -> Script<()>,               // esearch(db="assembly", term=accession)
    assemblySearchRead: string -> Script<seq<string>>,  // Entrez.read of that search: its IdList
    assemblySummary: string -> Script<Summary>,         // esummary(db="assembly", id, report="full"), read
    sraSearch: string -> Script<seq<string>>,           // esearch(db="sra", term=BioSample accession), read
    sraSummary: string -> Script<seq<SraItem>>)         // esummary(db="sra", id), parsed

  /** Why a run of the pipeline stopped. */
  datatype Failure =
    | Reraised(fault: Fault)  // a fault the retry loop does not retry, re-raised
    | NothingBound            // every attempt failed, so the statement after the loop fails: it reads a handle never bound, or re-reads the previous, already-read response
    | NoStatsBlock            // the summary's Meta has no Stats element

  /** A remote call through the retry loop, as the pipeline sees it. */
  function Guarded<T>(script: Script<T>, retryable: Fault -> bool): (r: Result<T, Failure>)
    ensures r.Ok? <==> Retry(script, retryable).Done?
    ensures r.Ok? ==> Answered(r.value) in script[..MaxAttempts]
    ensures r.Ok? ==> r.value == Retry(script, retryable).value && FirstAnswer(script, retryable, r.value)
    ensures r == Err(NothingBound) <==> RetriedThrough(script, retryable, MaxAttempts)
    ensures r.Err? && r.error.Reraised? ==> !retryable(r.error.fault) && Raised(r.error.fault) in script
  {
    match Retry(script, retryable)
    case Done(v, _) => Ok(v)
    case Propagated(f, _) => Err(Reraised(f))
    case Exhausted => Err(NothingBound)
  }

  /** `get_ids`: the search, retried on server errors, then its read, retried on RuntimeError. */
  function ResolveIds(accession: string, remote: Remote): (r: Result<seq<string>, Failure>)
    ensures var search := remote.assemblySearch(accession); var read := remote.assemblySearchRead(accession);
      r.Ok? <==> Retry(search, ServerRetryable).Done? && Retry(read, ReadRetryable).Done?
    ensures var search := remote.assemblySearch(accession); var read := remote.assemblySearchRead(accession);
      r == Err(NothingBound) <==>
        || RetriedThrough(search, ServerRetryable, MaxAttempts)
        || (Retry(search, ServerRetryable).Done? && RetriedThrough(read, ReadRetryable, MaxAttempts))
    ensures r.Ok? ==> Answered(r.value) in remote.assemblySearchRead(accession)[..MaxAttempts]
    ensures r.Ok? ==> FirstAnswer(remote.assemblySearchRead(accession), ReadRetryable, r.value)
    ensures var search := remote.assemblySearch(accession); var read := remote.assemblySearchRead(accession);
      r.Err? && r.error.Reraised? ==>
        || (!ServerRetryable(r.error.fault) && Raised(r.error.fault) in search)
        || (!ReadRetryable(r.error.fault) && Raised(r.error.fault) in read)
  {
    var _ :- Guarded(remote.assemblySearch(accession), ServerRetryable);
    Guarded(remote.assemblySearchRead(accession), ReadRetryable)
  }

  /** `get_assembly_summary_json`: the first summary document of an id. */
  function FetchSummary(id: string, remote: Remote): (r: Result<Summary, Failure>)
    ensures r.Ok? <==> Retry(remote.assemblySummary(id), ServerRetryable).Done?
    ensures r == Err(NothingBound) <==> RetriedThrough(remote.assemblySummary(id), ServerRetryable, MaxAttempts)
    ensures r.Ok? ==> Answered(r.value) in remote.assemblySummary(id)[..MaxAttempts]
    ensures r.Ok? ==> FirstAnswer(remote.assemblySummary(id), ServerRetryable, r.value)
    ensures r.Err? && r.error.Reraised? ==>
      !ServerRetryable(r.error.fault) && Raised(r.error.fault) in remote.assemblySummary(id)
  {
    Guarded(remote.assemblySummary(id), ServerRetryable)
  }

  /** `get_sra_uids`: the SRA records linked to a BioSample accession. */
  function SraUids(bioSample: string, remote: Remote): (r: Result<seq<string>, Failure>)
    ensures r.Ok? <==> Retry(remote.sraSearch(bioSample), ServerRetryable).Done?
    ensures r == Err(NothingBound) <==> RetriedThrough(remote.sraSearch(bioSample), ServerRetryable, MaxAttempts)
    ensures r.Ok? ==> Answered(r.value) in remote.sraSearch(bioSample)[..MaxAttempts]
    ensures r.Ok? ==> FirstAnswer(remote.sraSearch(bioSample), ServerRetryable, r.value)
    ensures r.Err? && r.error.Reraised? ==>
      !ServerRetryable(r.error.fault) && Raised(r.error.fault) in remote.sraSearch(bioSample)
  {
    Guarded(remote.sraSearch(bioSample), ServerRetryable)
  }

  /** The summary document of every SRA uid, fetched in order; the first failure stops the loop. */
  function SraDocuments(uids: seq<string>, remote: Remote): (r: Result<seq<seq<SraItem>>, Failure>)
    ensures r.Ok? <==> forall j :: 0 <= j < |uids| ==> Guarded(remote.sraSummary(uids[j]), ServerRetryable).Ok?
    ensures r.Ok? ==> |r.value| == |uids|
    ensures r.Ok? ==> forall j :: 0 <= j < |uids| ==> r.value[j] == Guarded(remote.sraSummary(uids[j]), ServerRetryable).value
    decreases |uids|
  {
    if |uids| == 0 then Ok([])
    else
      var doc :- Guarded(remote.sraSummary(uids[0]), ServerRetryable);
      var rest :- SraDocuments(uids[1..], remote);
      assert forall j :: 1 <= j < |uids| ==> uids[j] == uids[1..][j - 1];
      Ok([doc] + rest)
  }

  /** A non-empty `Runs` item, whose run accessions are collected. */
  predicate GivesRuns(item: SraItem) {
    item.text != "" && item.name == "Runs"
  }

  /** A non-empty `ExpXml` item with at least one `<Platform>` body, whose first body is collected. */
  predicate GivesPlatform(item: SraItem) {
    item.text != "" && item.name == "ExpXml" && |item.platformMatches| > 0
  }

  /** The run accessions of one document: those of every non-empty `Runs` item, in order. */
  function RunsOf(items: seq<SraItem>): (runs: seq<string>)
    ensures forall x :: x in runs <==> exists i :: 0 <= i < |items| && GivesRuns(items[i]) && x in items[i].runAccessions
    decreases |items|
  {
    if |items| == 0 then []
    else
      var item := items[0];
      assert forall i :: 1 <= i < |items| ==> items[i] == items[1..][i - 1];
      (if GivesRuns(item) then item.runAccessions else []) + RunsOf(items[1..])
  }

  /** The platforms of one document: the first `<Platform>` body of every item that gives one, in order. */
  function PlatformsOf(items: seq<SraItem>): (platforms: seq<string>)
    ensures |platforms| <= |items|
    ensures forall x :: x in platforms <==> exists i :: 0 <= i < |items| && GivesPlatform(items[i]) && items[i].platformMatches[0] == x
    ensures (forall i :: 0 <= i < |items| ==> GivesPlatform(items[i])) ==> |platforms| == |items|
    decreases |items|
  {
    if |items| == 0 then []
    else
      var item := items[0];
      assert forall i :: 1 <= i < |items| ==> items[i] == items[1..][i - 1];
      (if GivesPlatform(item) then [item.platformMatches[0]] else []) + PlatformsOf(items[1..])
  }

  /** Collecting runs keeps document order: it distributes over concatenation. */
  lemma {:induction false} RunsOfAppend(a: seq<SraItem>, b: seq<SraItem>)
    ensures RunsOf(a + b) == RunsOf(a) + RunsOf(b)
    decreases |a|
  {
    if |a| > 0 {
      assert (a + b)[1..] == a[1..] + b;
      RunsOfAppend(a[1..], b);
    } else {
      assert a + b == b;
    }
  }

  lemma {:induction false} PlatformsOfAppend(a: seq<SraItem>, b: seq<SraItem>)
    ensures PlatformsOf(a + b) == PlatformsOf(a) + PlatformsOf(b)
    decreases |a|
  {
    if |a| > 0 {
      assert (a + b)[1..] == a[1..] + b;
      PlatformsOfAppend(a[1..], b);
    } else {
      assert a + b == b;
    }
  }

  /** A single item contributes all its run accessions, in order, when it gives runs, and nothing otherwise. */
  lemma RunsOfOne(item: SraItem)
    ensures RunsOf([item]) == (if GivesRuns(item) then item.runAccessions else [])
  {
    assert [item][1..] == [];
    assert RunsOf([item]) == (if GivesRuns(item) then item.runAccessions else []) + [];
  }

  /** A single item contributes its first `<Platform>` body when it gives one, and nothing otherwise. */
  lemma PlatformsOfOne(item: SraItem)
    ensures PlatformsOf([item]) == (if GivesPlatform(item) then [item.platformMatches[0]] else [])
  {
    assert [item][1..] == [];
    assert PlatformsOf([item]) == (if GivesPlatform(item) then [item.platformMatches[0]] else []) + [];
  }

  /** Runs and platforms accumulated over all documents, in document order. */
  function AllRuns(docs: seq<seq<SraItem>>): (runs: seq<string>)
    ensures forall x :: x in runs <==> exists d :: 0 <= d < |docs| && x in RunsOf(docs[d])
    decreases |docs|
  {
    if |docs| == 0 then []
    else
      assert forall d :: 1 <= d < |docs| ==> docs[d] == docs[1..][d - 1];
      RunsOf(docs[0]) + AllRuns(docs[1..])
  }

  function AllPlatforms(docs: seq<seq<SraItem>>): (platforms: seq<string>)
    ensures forall x :: x in platforms <==> exists d :: 0 <= d < |docs| && x in PlatformsOf(docs[d])
    decreases |docs|
  {
    if |docs| == 0 then []
    else
      assert forall d :: 1 <= d < |docs| ==> docs[d] == docs[1..][d - 1];
      PlatformsOf(docs[0]) + AllPlatforms(docs[1..])
  }

  /**
   * `get_sra_info`: the `;`-joined run accessions and platforms of the
   * linked SRA records. It succeeds exactly when every uid's summary does;
   * with nothing collected a string is empty, and otherwise (for pieces
   * free of `;`) splitting it at `;` gives the collected list back.
   */
  function SraInfo(uids: seq<string>, remote: Remote): (r: Result<(string, string), Failure>)
    ensures r.Ok? <==> forall j :: 0 <= j < |uids| ==> Guarded(remote.sraSummary(uids[j]), ServerRetryable).Ok?
    ensures r.Ok? ==> var docs := SraDocuments(uids, remote).value;
      && (|AllRuns(docs)| == 0 ==> r.value.0 == "")
      && (|AllPlatforms(docs)| == 0 ==> r.value.1 == "")
    ensures r.Ok? ==> var runs := AllRuns(SraDocuments(uids, remote).value);
      |runs| > 0 && (forall i :: 0 <= i < |runs| ==> ';' !in runs[i]) ==> Split(r.value.0, ';') == runs
    ensures r.Ok? ==> var platforms := AllPlatforms(SraDocuments(uids, remote).value);
      |platforms| > 0 && (forall i :: 0 <= i < |platforms| ==> ';' !in platforms[i]) ==> Split(r.value.1, ';') == platforms
  {
    var docs :- SraDocuments(uids, remote);
    var runs := AllRuns(docs);
    var platforms := AllPlatforms(docs);
    JoinedListSplits(runs);
    JoinedListSplits(platforms);
    Ok((Join(runs, ';'), Join(platforms, ';')))
  }

  /** A non-empty list free of `;`, once `;`-joined, splits back into itself. */
  lemma JoinedListSplits(parts: seq<string>)
    ensures |parts| > 0 && (forall i :: 0 <= i < |parts| ==> ';' !in parts[i]) ==> Split(Join(parts, ';'), ';') == parts
  {
    if |parts| > 0 && (forall i :: 0 <= i < |parts| ==> ';' !in parts[i]) {
      SplitJoin(parts, ';');
    }
  }

  /**
   * The SRA and Platform strings of a row: both empty when the summary has
   * no BioSample accession or the BioSample has no linked SRA records.
   */
  function Linkage(s: Summary, remote: Remote): (r: Result<(string, string), Failure>)
    ensures s.bioSampleAccn == "" ==> r == Ok(("", ""))
    ensures s.bioSampleAccn != "" ==>
      (r.Err? <==> (|| SraUids(s.bioSampleAccn, remote).Err?
                    || (|SraUids(s.bioSampleAccn, remote).value| > 0
                        && SraInfo(SraUids(s.bioSampleAccn, remote).value, remote).Err?)))
    ensures r.Ok? && (r.value.0 != "" || r.value.1 != "") ==>
      && s.bioSampleAccn != "" && SraUids(s.bioSampleAccn, remote).Ok?
      && |SraUids(s.bioSampleAccn, remote).value| > 0
  {
    if s.bioSampleAccn == "" then Ok(("", ""))
    else
      var uids :- SraUids(s.bioSampleAccn, remote);
      if |uids| == 0 then Ok(("", "")) else SraInfo(uids, remote)
  }

  /** The report row of one resolved id. */
  function Describe(id: string, remote: Remote): Result<ReportRow, Failure> {
    var s :- FetchSummary(id, remote);
    if s.stats.None? then Err(NoStatsBlock)
    else
      var link :- Linkage(s, remote);
      Ok(AssemblyRow(s, s.stats.value, link.0, link.1))
  }

  /** The rows of an accession's ids, in id order; the first failure stops the loop. */
  function RowsFor(ids: seq<string>, remote: Remote): (r: Result<seq<ReportRow>, Failure>)
    ensures r.Ok? <==> forall j :: 0 <= j < |ids| ==> Describe(ids[j], remote).Ok?
    ensures r.Ok? ==> |r.value| == |ids|
    ensures r.Ok? ==> forall j :: 0 <= j < |ids| ==> r.value[j] == Describe(ids[j], remote).value
    ensures r.Err? ==> exists j :: 0 <= j < |ids| && Describe(ids[j], remote) == Err(r.error)
    decreases |ids|
  {
    if |ids| == 0 then Ok([])
    else
      var row :- Describe(ids[0], remote);
      var rest :- RowsFor(ids[1..], remote);
      assert forall j :: 1 <= j < |ids| ==> ids[j] == ids[1..][j - 1];
      Ok([row] + rest)
  }

  /** The number of ids the accessions resolve to, counting 0 for one that fails to resolve. */
  function ResolvedCount(accessions: seq<string>, remote: Remote): nat
    decreases |accessions|
  {
    if |accessions| == 0 then 0
    else
      (match ResolveIds(accessions[0], remote) case Ok(ids) => |ids| case Err(_) => 0)
        + ResolvedCount(accessions[1..], remote)
  }

  /** Whether every accession resolves and every one of its ids yields a row. */
  ghost predicate AllDescribed(accessions: seq<string>, remote: Remote) {
    forall i :: 0 <= i < |accessions| ==>
      && ResolveIds(accessions[i], remote).Ok?
      && forall j :: 0 <= j < |ResolveIds(accessions[i], remote).value| ==>
           Describe(ResolveIds(accessions[i], remote).value[j], remote).Ok?
  }

  /**
   * The body of `write_assembly_info_csv`: the rows of every accession, in
   * accession-then-id order. The run succeeds exactly when every call does,
   * and then yields one row per resolved id.
   */
  function Enrich(accessions: seq<string>, remote: Remote): (r: Result<seq<ReportRow>, Failure>)
    ensures r.Ok? <==> AllDescribed(accessions, remote)
    ensures r.Ok? ==> |r.value| == ResolvedCount(accessions, remote)
    decreases |accessions|
  {
    if |accessions| == 0 then Ok([])
    else
      var ids :- ResolveIds(accessions[0], remote);
      var rows :- RowsFor(ids, remote);
      var rest :- Enrich(accessions[1..], remote);
      assert forall i :: 1 <= i < |accessions| ==> accessions[i] == accessions[1..][i - 1];
      Ok(rows + rest)
  }

  /** Enriching two runs of accessions back to back gives the first run's rows, then the second's. */
  lemma {:induction false} EnrichAppend(xs: seq<string>, ys: seq<string>, remote: Remote)
    ensures Enrich(xs, remote).Ok? && Enrich(ys, remote).Ok? ==>
      Enrich(xs + ys, remote) == Ok(Enrich(xs, remote).value + Enrich(ys, remote).value)
    decreases |xs|
  {
    if Enrich(xs, remote).Ok? && Enrich(ys, remote).Ok? {
      if |xs| == 0 {
        assert xs + ys == ys;
        assert Enrich(xs, remote).value == [];
        assert [] + Enrich(ys, remote).value == Enrich(ys, remote).value;
      } else {
        var ids := ResolveIds(xs[0], remote).value;
        var rows := RowsFor(ids, remote).value;
        assert Enrich(xs, remote) == Ok(rows + Enrich(xs[1..], remote).value);
        TailOfAppend(xs, ys);
        EnrichAppend(xs[1..], ys, remote);
        assert Enrich(xs + ys, remote) == Ok(rows + Enrich(xs[1..] + ys, remote).value);
        AppendAssociative(rows, Enrich(xs[1..], remote).value, Enrich(ys, remote).value);
      }
    }
  }

  lemma AppendAssociative<T>(a: seq<T>, b: seq<T>, c: seq<T>)
    ensures a + (b + c) == (a + b) + c
  {
  }

  lemma TailOfAppend<T>(xs: seq<T>, ys: seq<T>)
    requires |xs| > 0
    ensures (xs + ys)[0] == xs[0] && (xs + ys)[1..] == xs[1..] + ys
  {
  }

  /** A single accession contributes the rows of its resolved ids, in id order. */
  lemma EnrichOne(accession: string, remote: Remote)
    requires ResolveIds(accession, remote).Ok?
    ensures Enrich([accession], remote) == RowsFor(ResolveIds(accession, remote).value, remote)
  {
    assert [accession][1..] == [];
    var rows := RowsFor(ResolveIds(accession, remote).value, remote);
    if rows.Ok? {
      assert rows.value + [] == rows.value;
    }
  }

  /** An accession that cannot be resolved aborts the whole run: no report is produced. */
  lemma AbortsOnUnresolved(accessions: seq<string>, remote: Remote, i: nat)
    requires i < |accessions| && ResolveIds(accessions[i], remote).Err?
    ensures Enrich(accessions, remote).Err?
  {
  }

  /** The SRA and Platform strings are both empty without a BioSample accession or without linked SRA records. */
  lemma LinkageSentinels(s: Summary, remote: Remote)
    ensures s.bioSampleAccn == "" ==> Linkage(s, remote) == Ok(("", ""))
    ensures SraUids(s.bioSampleAccn, remote) == Ok([]) ==> Linkage(s, remote) == Ok(("", ""))
  {
  }

  /**
   * With linked SRA records, the SRA and Platform strings are the `;`-joins
   * of the runs and platforms collected over their documents; a list of
   * run accessions free of `;` can be split back out of the SRA string.
   */
  lemma LinkageJoins(s: Summary, remote: Remote)
    requires s.bioSampleAccn != ""
    requires SraUids(s.bioSampleAccn, remote).Ok? && |SraUids(s.bioSampleAccn, remote).value| > 0
    requires SraDocuments(SraUids(s.bioSampleAccn, remote).value, remote).Ok?
    ensures var docs := SraDocuments(SraUids(s.bioSampleAccn, remote).value, remote).value;
      && Linkage(s, remote) == Ok((Join(AllRuns(docs), ';'), Join(AllPlatforms(docs), ';')))
      && (|AllRuns(docs)| > 0 && (forall i :: 0 <= i < |AllRuns(docs)| ==> ';' !in AllRuns(docs)[i]) ==>
            Split(Linkage(s, remote).value.0, ';') == AllRuns(docs))
  {
    var docs := SraDocuments(SraUids(s.bioSampleAccn, remote).value, remote).value;
    if |AllRuns(docs)| > 0 && (forall i :: 0 <= i < |AllRuns(docs)| ==> ';' !in AllRuns(docs)[i]) {
      SplitJoin(AllRuns(docs), ';');
    }
  }

  /**
   * The sentinel defaults of a row: BioprojectAccn is empty without GenBank
   * BioProjects and the first one's accession otherwise; SRA and Platform
   * are empty without a BioSample accession.
   */
  lemma DescribeSentinels(id: string, remote: Remote)
    ensures Describe(id, remote).Ok? ==>
      var s := FetchSummary(id, remote).value; var row := Describe(id, remote).value;
      && (s.gbBioProjects.None? || s.gbBioProjects == Some([]) ==> row.bioprojectAccn == "")
      && (s.gbBioProjects.Some? && |s.gbBioProjects.value| > 0 ==> row.bioprojectAccn == s.gbBioProjects.value[0])
      && (s.bioSampleAccn == "" ==> row.sra == "" && row.platform == "")
      && row.assemblyAccession == s.assemblyAccession
  {
  }

  /**
   * Describing an id fails when the summary fetch fails, with
   * `NoStatsBlock` when the summary has no Stats element, and when the SRA
   * linkage fails; otherwise the row carries the summary's accession and
   * the linkage strings.
   */
  lemma DescribeOutcome(id: string, remote: Remote)
    ensures var r := Describe(id, remote);
      r.Ok? <==>
        && FetchSummary(id, remote).Ok? && FetchSummary(id, remote).value.stats.Some?
        && Linkage(FetchSummary(id, remote).value, remote).Ok?
    ensures FetchSummary(id, remote).Ok? && FetchSummary(id, remote).value.stats.None? ==>
      Describe(id, remote) == Err(NoStatsBlock)
    ensures FetchSummary(id, remote).Err? ==> Describe(id, remote) == Err(FetchSummary(id, remote).error)
    ensures var r := Describe(id, remote);
      r.Ok? ==> var s := FetchSummary(id, remote).value; var link := Linkage(s, remote).value;
        && r.value.assemblyAccession == s.assemblyAccession
        && r.value.sra == link.0 && r.value.platform == link.1
    ensures var r := Describe(id, remote);
      r.Ok? ==> var s := FetchSummary(id, remote).value; var link := Linkage(s, remote).value;
        r.value == AssemblyRow(s, s.stats.value, link.0, link.1)
  {
  }

  /**
   * A described row's statistic cells are the statistics loop's values
   * over the summary's Stats, and its flag fields follow the summary's
   * PropertyList.
   */
  lemma DescribedRowContent(id: string, remote: Remote)
    requires Describe(id, remote).Ok?
    ensures var s := FetchSummary(id, remote).value; var row := Describe(id, remote).value;
      && s.stats.Some?
      && (forall i :: 11 <= i < 17 ==>
            Header[i] in SeqStats(s.stats.value) && Cells(row)[i] == SeqStats(s.stats.value)[Header[i]])
      && row.fullGenomeRepresentation == (if "full-genome-representation" in s.propertyList then "true" else "false")
      && row.genbankHasAnnotation == (if "genbank_has_annotation" in s.propertyList then "true" else "false")
      && row.refseqHasAnnotation == (if "refseq_has_annotation" in s.propertyList then "true" else "false")
      && row.hasAnnotation == (if "has_annotation" in s.propertyList then "true" else "false")
      && row.wgs == (if "wgs" in s.propertyList then "true" else "false")
  {
    DescribeOutcome(id, remote);
    var s := FetchSummary(id, remote).value;
    var link := Linkage(s, remote).value;
    RowStatCells(s, s.stats.value, link.0, link.1);
    RowFlags(s, s.stats.value, link.0, link.1);
  }

  /** The report: the header line, then the cells of every row. */
  function WriteReport(accessions: seq<string>, remote: Remote): (r: Result<seq<seq<string>>, Failure>)
    ensures r.Ok? <==> AllDescribed(accessions, remote)
    ensures r.Ok? ==> |r.value| == 1 + ResolvedCount(accessions, remote) && r.value[0] == Header
    ensures r.Ok? ==> forall i :: 0 <= i < |r.value| ==> |r.value[i]| == |Header| == 30
    ensures r.Ok? ==> forall i :: 0 <= i < |Enrich(accessions, remote).value| ==>
      r.value[i + 1] == Cells(Enrich(accessions, remote).value[i])
  {
    var rows :- Enrich(accessions, remote);
    HeaderShape();
    Ok([Header] + seq(|rows|, i requires 0 <= i < |rows| => Cells(rows[i])))
  }
}

=== FILE: ingress.dfy ===
/**
 * File retrieval for one call of `download_from_ftp`: validation of the
 * requested file kinds, the accession derived from a path, the remote and
 * local name of each kind, the per-accession directory, and the list of
 * retrieved paths. The file system is a set of directories and a set of
 * files; the file server is the set of remote URLs that can be fetched.
 */
module Ingress {
  import opened Results
  import opened Text

  /** The file kinds that may be requested. */
  const Kinds: seq<string> := ["gbk", "fna", "faa", "gff", "transcript_fna"]

  /** `ftppaths` as passed: a single path or a list of paths. */
  datatype PathsArg = OnePath(path: string) | PathList(paths: seq<string>)

  /** `inquiries` as passed: a single kind or a list of kinds. */
  datatype KindsArg = OneKind(kind: string) | KindList(kinds: seq<string>)

  function PathsOf(a: PathsArg): seq<string> {
    match a
    case OnePath(p) => [p]
    case PathList(ps) => ps
  }

  function KindsOf(a: KindsArg): seq<string> {
    match a
    case OneKind(k) => [k]
    case KindList(ks) => ks
  }

  /**
   * The assertion as the program writes it: it iterates the raw argument, so
   * a single kind given as a string is checked one character at a time.
   */
  predicate AcceptedAsWritten(inquiries: KindsArg) {
    match inquiries
    case OneKind(s) => forall i :: 0 <= i < |s| ==> [s[i]] in Kinds
    case KindList(ks) => forall k :: k in ks ==> k in Kinds
  }

  /** The assertion applied to the normalised list of kinds. */
  predicate Accepted(inquiries: KindsArg) {
    forall k :: k in KindsOf(inquiries) ==> k in Kinds
  }

  /** `get_accession`: the first two `_`-separated tokens of the basename, joined by `_`. */
  function Accession(path: string): string {
    Join(Leading(Split(Basename(path), '_')), '_')
  }

  /** The first two tokens, or all of them when there are fewer. */
  function Leading(tokens: seq<string>): (lead: seq<string>)
    ensures |lead| <= 2 && |lead| <= |tokens| && lead == tokens[..|lead|]
    ensures |lead| == if |tokens| < 2 then |tokens| else 2
  {
    if |tokens| < 2 then tokens else tokens[..2]
  }

  /** The suffix of a kind's file on the server. Any other kind is treated as `gff`. */
  function RemoteSuffix(kind: string): string {
    if kind == "gbk" then "_genomic.gbff.gz"
    else if kind == "faa" then "_protein.faa.gz"
    else if kind == "fna" then "_genomic.fna.gz"
    else if kind == "transcript_fna" then "_cds_from_genomic.fna.gz"
    else "_genomic.gff.gz"
  }

  /** The suffix of a kind's file once retrieved. */
  function LocalSuffix(kind: string): string {
    if kind == "gbk" then "_genomic.gbk.gz"
    else if kind == "faa" then "_protein.faa.gz"
    else if kind == "fna" then "_genomic.fna.gz"
    else if kind == "transcript_fna" then "_cds_from_genomic.fna.gz"
    else "_genomic.gff3.gz"
  }

  /** One transfer: the URL fetched and the local path written. */
  datatype Transfer = Transfer(src: string, dst: string)

  /** The transfer of one kind for one remote base path. */
  function TransferFor(ftppath: string, kind: string, dstdir: string): Transfer {
    var accession := Accession(ftppath);
    Transfer(ftppath + "/" + Basename(ftppath) + RemoteSuffix(kind),
             PathJoin(PathJoin(dstdir, accession), accession + LocalSuffix(kind)))
  }

  /** `f(x, y)` for every `x` of `xs` and, within it, every `y` of `ys`: the order of two nested loops. */
  function Grid<X, Y, Z>(xs: seq<X>, ys: seq<Y>, f: (X, Y) -> Z): (zs: seq<Z>)
    decreases |xs|
  {
    if |xs| == 0 then []
    else seq(|ys|, j requires 0 <= j < |ys| => f(xs[0], ys[j])) + Grid(xs[1..], ys, f)
  }

  /** The transfers of every path, path-major, each path's in the order the kinds were requested. */
  function Transfers(paths: seq<string>, kinds: seq<string>, dstdir: string): seq<Transfer> {
    Grid(paths, kinds, (p, k) => TransferFor(p, k, dstdir))
  }

  /** The directory created for a path's accession. */
  function AccessionDir(dstdir: string, ftppath: string): string {
    dstdir + "/" + Accession(ftppath)
  }

  /** The file system: existing directories and files. */
  datatype Disk = Disk(dirs: set<string>, files: set<string>)

  /**
   * Runs the transfers in order. A transfer whose source is on the server
   * writes its destination; any other transfer fails, and the failure is
   * logged and swallowed. Each entry is the destination when it exists
   * afterwards, else None.
   */
  function Execute(jobs: seq<Transfer>, files: set<string>, server: set<string>): (r: (seq<Option<string>>, set<string>))
    ensures |r.0| == |jobs|
    decreases |jobs|
  {
    if |jobs| == 0 then ([], files)
    else
      var job := jobs[0];
      var written := if job.src in server then files + {job.dst} else files;
      var rest := Execute(jobs[1..], written, server);
      ([if job.dst in written then Some(job.dst) else None] + rest.0, rest.1)
  }

  /** What the call returns, or the error it raises. */
  datatype Returned =
    | Single(entry: Option<string>)       // `ftppaths` was a string: the first entry
    | Listed(entries: seq<Option<string>>) // `ftppaths` was a list: every entry
    | AssertionFailed                      // a requested kind is not valid
    | IndexFailed                          // `ftppaths` was a string and no entry was produced

  datatype Download = Download(returned: Returned, disk: Disk)

  /** The body after the assertion: directories, transfers and the returned value. */
  function Retrieve(ftppaths: PathsArg, kinds: seq<string>, dstdir: string, disk: Disk, server: set<string>): Download {
    var paths := PathsOf(ftppaths);
    var dirs := disk.dirs + set p | p in paths :: AccessionDir(dstdir, p);
    var run := Execute(Transfers(paths, kinds, dstdir), disk.files, server);
    var returned :=
      if ftppaths.PathList? then Listed(run.0)
      else if |run.0| == 0 then IndexFailed
      else Single(run.0[0]);
    Download(returned, Disk(dirs, run.1))
  }

  /** `download_from_ftp` with the assertion as written. */
  function DownloadFromFtpAsWritten(ftppaths: PathsArg, inquiries: KindsArg, dstdir: string, disk: Disk, server: set<string>): (d: Download)
    ensures d.returned == AssertionFailed <==> !AcceptedAsWritten(inquiries)
    ensures d.returned == AssertionFailed ==> d.disk == disk
    ensures disk.dirs <= d.disk.dirs && disk.files <= d.disk.files
    ensures AcceptedAsWritten(inquiries) == Accepted(inquiries) ==> d == DownloadFromFtp(ftppaths, inquiries, dstdir, disk, server)
  {
    if !AcceptedAsWritten(inquiries) then Download(AssertionFailed, disk)
    else
      ExecuteGrows(Transfers(PathsOf(ftppaths), KindsOf(inquiries), dstdir), disk.files, server);
      Retrieve(ftppaths, KindsOf(inquiries), dstdir, disk, server)
  }

  /** `download_from_ftp` with the assertion applied to the normalised kinds. */
  function DownloadFromFtp(ftppaths: PathsArg, inquiries: KindsArg, dstdir: string, disk: Disk, server: set<string>): (d: Download)
    ensures d.returned == AssertionFailed <==> !Accepted(inquiries)
    ensures d.returned == AssertionFailed ==> d.disk == disk
    ensures disk.dirs <= d.disk.dirs && disk.files <= d.disk.files
    ensures Accepted(inquiries) ==> (ftppaths.PathList? <==> d.returned.Listed?)
    ensures Accepted(inquiries) ==> forall p :: p in PathsOf(ftppaths) ==> AccessionDir(dstdir, p) in d.disk.dirs
    ensures forall x :: x in d.disk.dirs ==> x in disk.dirs || exists p :: p in PathsOf(ftppaths) && x == AccessionDir(dstdir, p)
    ensures Accepted(inquiries) ==>
      var jobs := Transfers(PathsOf(ftppaths), KindsOf(inquiries), dstdir);
      forall x :: x in d.disk.files <==> x in disk.files || FetchedBefore(jobs, server, |jobs|, x)
    ensures d.returned.Listed? ==>
      forall n :: 0 <= n < |d.returned.entries| && d.returned.entries[n].Some? ==> d.returned.entries[n].value in d.disk.files
    ensures d.returned.Single? && d.returned.entry.Some? ==> d.returned.entry.value in d.disk.files
  {
    if !Accepted(inquiries) then Download(AssertionFailed, disk)
    else
      var jobs := Transfers(PathsOf(ftppaths), KindsOf(inquiries), dstdir);
      ExecuteGrows(jobs, disk.files, server);
      ExecuteFiles(jobs, disk.files, server);
      EntriesExist(jobs, disk.files, server);
      Retrieve(ftppaths, KindsOf(inquiries), dstdir, disk, server)
  }

  /** Transfers only add files. */
  lemma {:induction false} ExecuteGrows(jobs: seq<Transfer>, files: set<string>, server: set<string>)
    ensures files <= Execute(jobs, files, server).1
    decreases |jobs|
  {
    if |jobs| > 0 {
      var job := jobs[0];
      var written := if job.src in server then files + {job.dst} else files;
      ExecuteGrows(jobs[1..], written, server);
    }
  }

  /** Every reported entry is its transfer's destination, and that file exists after the run. */
  lemma {:induction false} EntriesExist(jobs: seq<Transfer>, files: set<string>, server: set<string>)
    ensures var r := Execute(jobs, files, server);
      forall n :: 0 <= n < |jobs| && r.0[n].Some? ==> r.0[n] == Some(jobs[n].dst) && jobs[n].dst in r.1
    decreases |jobs|
  {
    if |jobs| > 0 {
      var job := jobs[0];
      var written := if job.src in server then files + {job.dst} else files;
      var tail := jobs[1..];
      var rest := Execute(tail, written, server);
      EntriesExist(tail, written, server);
      ExecuteGrows(tail, written, server);
      var r := Execute(jobs, files, server);
      assert r.0 == [if job.dst in written then Some(job.dst) else None] + rest.0;
      forall n | 0 <= n < |jobs| && r.0[n].Some?
        ensures r.0[n] == Some(jobs[n].dst) && jobs[n].dst in r.1
      {
        if n > 0 {
          assert r.0[n] == rest.0[n - 1] && jobs[n] == tail[n - 1];
        }
      }
    }
  }

  lemma ConcatIndex<T>(head: seq<T>, rest: seq<T>, m: nat)
    requires m < |rest|
    ensures |head| + m < |head + rest| && (head + rest)[|head| + m] == rest[m]
  {
  }

  lemma MulSucc(a: nat, k: nat)
    requires a > 0
    ensures a * k == k + (a - 1) * k && (a - 1) * k >= 0
  {
  }

  /** The position of `f(xs[i], ys[j])` in the grid, counted row by row. */
  function Slot(i: nat, k: nat, j: nat): nat {
    if i == 0 then j else k + Slot(i - 1, k, j)
  }

  lemma {:induction false} SlotIsProduct(i: nat, k: nat, j: nat)
    ensures Slot(i, k, j) == i * k + j
  {
    if i > 0 {
      SlotIsProduct(i - 1, k, j);
      MulSucc(i, k);
    }
  }

  lemma {:induction false} GridCount<X, Y, Z>(xs: seq<X>, ys: seq<Y>, f: (X, Y) -> Z)
    ensures |Grid(xs, ys, f)| == |xs| * |ys|
    decreases |xs|
  {
    if |xs| > 0 {
      GridCount(xs[1..], ys, f);
      MulSucc(|xs|, |ys|);
    }
  }

  lemma {:induction false} GridAtSlot<X, Y, Z>(xs: seq<X>, ys: seq<Y>, f: (X, Y) -> Z, i: nat, j: nat)
    requires i < |xs| && j < |ys|
    ensures Slot(i, |ys|, j) < |Grid(xs, ys, f)|
    ensures Grid(xs, ys, f)[Slot(i, |ys|, j)] == f(xs[i], ys[j])
    decreases |xs|
  {
    var head := seq(|ys|, j requires 0 <= j < |ys| => f(xs[0], ys[j]));
    var rest := Grid(xs[1..], ys, f);
    assert Grid(xs, ys, f) == head + rest;
    if i > 0 {
      GridAtSlot(xs[1..], ys, f, i - 1, j);
      ConcatIndex(head, rest, Slot(i - 1, |ys|, j));
      assert xs[1..][i - 1] == xs[i];
    }
  }

  /** There are |paths| times |kinds| transfers, and transfer `i * |kinds| + j` fetches kind `j` of path `i`. */
  lemma TransfersAt(paths: seq<string>, kinds: seq<string>, dstdir: string, i: nat, j: nat)
    requires i < |paths| && j < |kinds|
    ensures |Transfers(paths, kinds, dstdir)| == |paths| * |kinds|
    ensures 0 <= i * |kinds| + j < |Transfers(paths, kinds, dstdir)|
    ensures Transfers(paths, kinds, dstdir)[i * |kinds| + j] == TransferFor(paths[i], kinds[j], dstdir)
  {
    var f := (p, k) => TransferFor(p, k, dstdir);
    GridCount(paths, kinds, f);
    GridAtSlot(paths, kinds, f, i, j);
    SlotIsProduct(i, |kinds|, j);
  }

  /** Every local suffix starts with `_` and has no `/`. */
  lemma LocalSuffixShape(kind: string)
    ensures |LocalSuffix(kind)| > 1 && LocalSuffix(kind)[0] == '_' && '/' !in LocalSuffix(kind)
  {
  }

  /** No remote suffix contains `/`. */
  lemma RemoteSuffixShape(kind: string)
    ensures '/' !in RemoteSuffix(kind)
  {
    if kind == "gbk" {
    } else if kind == "faa" {
    } else if kind == "fna" {
    } else if kind == "transcript_fna" {
    } else {
      assert RemoteSuffix(kind) == "_genomic.gff.gz";
    }
  }

  /** The accession of an accession is itself. */
  lemma AccessionIdempotent(path: string)
    ensures Accession(Accession(path)) == Accession(path)
  {
    var lead := Leading(Split(Basename(path), '_'));
    SplitAvoids(Basename(path), '_', '/');
    JoinAvoids(lead, '_', '/');
    BasenameOfPlain(Join(lead, '_'));
    SplitJoin(lead, '_');
    assert Leading(lead) == lead;
  }

  lemma SplitTwoTokens(t0: string, t1: string, rest: string)
    requires '_' !in t0 && '_' !in t1
    ensures Split(t0 + ['_'] + t1 + ['_'] + rest, '_') == [t0, t1] + Split(rest, '_')
  {
    var tail := t1 + ['_'] + rest;
    SplitCons(t0, '_', tail);
    SplitCons(t1, '_', rest);
    assert t0 + ['_'] + t1 + ['_'] + rest == t0 + ['_'] + tail;
  }

  /** The accession of a file named `t0_t1_rest` is `t0_t1`, wherever the file lies. */
  lemma AccessionOfName(dir: string, t0: string, t1: string, rest: string)
    requires '_' !in t0 && '_' !in t1
    requires '/' !in t0 && '/' !in t1 && '/' !in rest
    ensures Accession(PathJoin(dir, t0 + ['_'] + t1 + ['_'] + rest)) == t0 + ['_'] + t1
  {
    var name := t0 + ['_'] + t1 + ['_'] + rest;
    assert '/' !in name by {
      assert forall x :: x in name ==> x in t0 || x == '_' || x in t1 || x in rest;
    }
    assert Basename(PathJoin(dir, name)) == name by {
      BasenameOfJoin(dir, name);
    }
    SplitTwoTokens(t0, t1, rest);
    var path := PathJoin(dir, name);
    assert Leading(Split(Basename(path), '_')) == [t0, t1];
    assert Join([t0, t1], '_') == t0 + ['_'] + t1 by {
      assert [t0, t1][1..] == [t1];
      assert Join([t1], '_') == t1;
    }
  }

  /**
   * A retrieved file is named after the accession of the path it came from,
   * so the accession can be read back from its local path, provided the
   * remote basename has at least two `_`-separated tokens.
   */
  lemma AccessionOfDestination(ftppath: string, kind: string, dstdir: string)
    requires |Split(Basename(ftppath), '_')| >= 2
    ensures Accession(TransferFor(ftppath, kind, dstdir).dst) == Accession(ftppath)
  {
    var tokens := Split(Basename(ftppath), '_');
    var t0, t1 := tokens[0], tokens[1];
    assert '/' !in t0 && '/' !in t1 by {
      SplitAvoids(Basename(ftppath), '_', '/');
    }
    var acc := Accession(ftppath);
    assert acc == t0 + ['_'] + t1 by {
      assert Leading(tokens) == [t0, t1];
      assert Join([t1], '_') == t1;
    }
    var suffix := LocalSuffix(kind);
    LocalSuffixShape(kind);
    var rest := suffix[1..];
    assert suffix == ['_'] + rest && '/' !in rest by {
      assert forall x :: x in rest ==> x in suffix;
    }
    assert acc + suffix == t0 + ['_'] + t1 + ['_'] + rest by {
      assert acc + suffix == (t0 + ['_'] + t1) + (['_'] + rest);
    }
    AccessionOfName(PathJoin(dstdir, acc), t0, t1, rest);
  }

  /** A file name with no `_` is its own accession, wherever the file lies. */
  lemma AccessionOfPlainName(dir: string, name: string)
    requires '_' !in name && '/' !in name
    ensures Accession(PathJoin(dir, name)) == name
  {
    BasenameOfJoin(dir, name);
    SplitNoSep(name, '_');
    assert Leading([name]) == [name];
  }

  /** An accession never contains `/`, so it names a single directory level. */
  lemma AccessionHasNoSlash(path: string)
    ensures '/' !in Accession(path)
  {
    var lead := Leading(Split(Basename(path), '_'));
    SplitAvoids(Basename(path), '_', '/');
    JoinAvoids(lead, '_', '/');
  }

  /** The five kinds have five different remote suffixes and five different local suffixes. */
  lemma SuffixesDistinct()
    ensures forall i, j :: 0 <= i < j < |Kinds| ==> RemoteSuffix(Kinds[i]) != RemoteSuffix(Kinds[j])
    ensures forall i, j :: 0 <= i < j < |Kinds| ==> LocalSuffix(Kinds[i]) != LocalSuffix(Kinds[j])
  {
  }

  /** Any kind other than `gbk`, `faa`, `fna` and `transcript_fna` is fetched and named as `gff`. */
  lemma OtherKindIsGff(kind: string)
    requires kind != "gbk" && kind != "faa" && kind != "fna" && kind != "transcript_fna"
    ensures RemoteSuffix(kind) == RemoteSuffix("gff") == "_genomic.gff.gz"
    ensures LocalSuffix(kind) == LocalSuffix("gff") == "_genomic.gff3.gz"
  {
  }

  /** A transfer writes the local file named after the accession and the kind's local suffix. */
  lemma TransferLocalName(ftppath: string, kind: string, dstdir: string)
    ensures Basename(TransferFor(ftppath, kind, dstdir).dst) == Accession(ftppath) + LocalSuffix(kind)
  {
    var acc := Accession(ftppath);
    AccessionHasNoSlash(ftppath);
    LocalSuffixShape(kind);
    NoSlashConcat(acc, LocalSuffix(kind));
    BasenameOfJoin(PathJoin(dstdir, acc), acc + LocalSuffix(kind));
  }

  /**
   * A transfer fetches, from within the path, the remote file named after
   * the path's basename and the kind's remote suffix.
   */
  lemma TransferRemoteName(ftppath: string, kind: string, dstdir: string)
    ensures var src := TransferFor(ftppath, kind, dstdir).src;
      && Basename(src) == Basename(ftppath) + RemoteSuffix(kind)
      && |src| > |ftppath| && src[..|ftppath| + 1] == ftppath + "/"
  {
    var remote := Basename(ftppath) + RemoteSuffix(kind);
    RemoteSuffixShape(kind);
    NoSlashConcat(Basename(ftppath), RemoteSuffix(kind));
    var src := TransferFor(ftppath, kind, dstdir).src;
    assert src == (ftppath + "/") + remote;
    BasenameAfterSlash(ftppath + "/", remote);
  }

  lemma NoSlashConcat(a: string, b: string)
    requires '/' !in a && '/' !in b
    ensures '/' !in a + b
  {
    assert forall x :: x in a + b ==> x in a || x in b;
  }

  /** Two different kinds requested for one path are written to two different local files. */
  lemma DistinctKindsDistinctFiles(ftppath: string, k1: string, k2: string, dstdir: string)
    requires k1 in Kinds && k2 in Kinds && k1 != k2
    ensures TransferFor(ftppath, k1, dstdir).dst != TransferFor(ftppath, k2, dstdir).dst
  {
    TransferLocalName(ftppath, k1, dstdir);
    TransferLocalName(ftppath, k2, dstdir);
    LocalSuffixesDiffer(k1, k2);
    var acc := Accession(ftppath);
    var n1, n2 := acc + LocalSuffix(k1), acc + LocalSuffix(k2);
    assert n1 != n2 by {
      assert LocalSuffix(k1) == n1[|acc|..] && LocalSuffix(k2) == n2[|acc|..];
    }
  }

  lemma LocalSuffixesDiffer(k1: string, k2: string)
    requires k1 in Kinds && k2 in Kinds && k1 != k2
    ensures LocalSuffix(k1) != LocalSuffix(k2)
  {
    var i1 :| 0 <= i1 < |Kinds| && Kinds[i1] == k1;
    var i2 :| 0 <= i2 < |Kinds| && Kinds[i2] == k2;
    SuffixesDistinct();
    assert i1 != i2;
  }

  /** Some earlier-or-same transfer, up to position `n`, fetched `dst` from the server. */
  ghost predicate FetchedBefore(jobs: seq<Transfer>, server: set<string>, n: nat, dst: string)
    requires n <= |jobs|
  {
    exists m :: 0 <= m < n && jobs[m].dst == dst && jobs[m].src in server
  }

  /**
   * Entry `n` is the destination exactly when the file existed before the
   * call or was fetched by transfer `n` or an earlier one with the same destination.
   */
  lemma {:induction false} ExecuteEntry(jobs: seq<Transfer>, files: set<string>, server: set<string>, n: nat)
    requires n < |jobs|
    ensures Execute(jobs, files, server).0[n] ==
      if jobs[n].dst in files || FetchedBefore(jobs, server, n + 1, jobs[n].dst) then Some(jobs[n].dst) else None
    decreases |jobs|
  {
    var job := jobs[0];
    var written := if job.src in server then files + {job.dst} else files;
    if n > 0 {
      var tail := jobs[1..];
      ExecuteEntry(tail, written, server, n - 1);
      var dst := jobs[n].dst;
      assert tail[n - 1] == jobs[n];
      if FetchedBefore(tail, server, n, dst) {
        var m :| 0 <= m < n && tail[m].dst == dst && tail[m].src in server;
        assert jobs[m + 1] == tail[m];
      }
      if FetchedBefore(jobs, server, n + 1, dst) {
        var m :| 0 <= m < n + 1 && jobs[m].dst == dst && jobs[m].src in server;
        if m > 0 {
          assert tail[m - 1] == jobs[m];
        }
      }
    } else {
      assert job.src in server && job.dst in written ==> FetchedBefore(jobs, server, 1, job.dst);
    }
  }

  /** Afterwards a file exists exactly when it existed before or some transfer fetched it. */
  lemma {:induction false} ExecuteFiles(jobs: seq<Transfer>, files: set<string>, server: set<string>)
    ensures forall x :: x in Execute(jobs, files, server).1 <==> x in files || FetchedBefore(jobs, server, |jobs|, x)
    decreases |jobs|
  {
    if |jobs| > 0 {
      var job := jobs[0];
      var written := if job.src in server then files + {job.dst} else files;
      var tail := jobs[1..];
      ExecuteFiles(tail, written, server);
      forall x
        ensures x in Execute(jobs, files, server).1 <==> x in files || FetchedBefore(jobs, server, |jobs|, x)
      {
        if FetchedBefore(tail, server, |tail|, x) {
          var m :| 0 <= m < |tail| && tail[m].dst == x && tail[m].src in server;
          assert jobs[m + 1] == tail[m];
        }
        if FetchedBefore(jobs, server, |jobs|, x) {
          var m :| 0 <= m < |jobs| && jobs[m].dst == x && jobs[m].src in server;
          if m > 0 {
            assert tail[m - 1] == jobs[m];
          }
        }
      }
    }
  }

  /**
   * As written, a single valid kind passed as a string is rejected: no
   * one-character string is a kind. Normalising first accepts it.
   */
  lemma BareKindRejectedAsWritten(kind: string)
    requires kind in Kinds
    ensures !AcceptedAsWritten(OneKind(kind))
    ensures Accepted(OneKind(kind))
  {
    assert [kind[0]] !in Kinds;
  }

  /**
   * As written, the empty string passes the assertion (there is no
   * character to check) and is then fetched as the `gff` files.
   * Normalising first rejects it.
   */
  lemma EmptyKindAcceptedAsWritten(ftppath: string, dstdir: string)
    ensures AcceptedAsWritten(OneKind(""))
    ensures !Accepted(OneKind(""))
    ensures TransferFor(ftppath, "", dstdir) == TransferFor(ftppath, "gff", dstdir)
  {
    assert forall i :: 0 <= i < |Kinds| ==> |Kinds[i]| > 0;
    assert "" !in Kinds;
    assert "" in KindsOf(OneKind(""));
  }

  /** On a list of kinds the two forms of the assertion agree, and so do the two calls. */
  lemma ListsAgree(ftppaths: PathsArg, kinds: seq<string>, dstdir: string, disk: Disk, server: set<string>)
    ensures AcceptedAsWritten(KindList(kinds)) == Accepted(KindList(kinds))
    ensures DownloadFromFtpAsWritten(ftppaths, KindList(kinds), dstdir, disk, server)
         == DownloadFromFtp(ftppaths, KindList(kinds), dstdir, disk, server)
  {
  }

  /** The destination of a transfer exists afterwards exactly when the call reports it. */
  ghost predicate Reported(job: Transfer, n: nat, jobs: seq<Transfer>, files: set<string>, server: set<string>)
    requires n < |jobs|
  {
    job.dst in files || FetchedBefore(jobs, server, n + 1, job.dst)
  }

  /** For a list of paths, the call returns the entries of the run, one per transfer. */
  lemma ListedRun(paths: seq<string>, kinds: seq<string>, dstdir: string, disk: Disk, server: set<string>)
    requires Accepted(KindList(kinds))
    ensures DownloadFromFtp(PathList(paths), KindList(kinds), dstdir, disk, server).returned
      == Listed(Execute(Transfers(paths, kinds, dstdir), disk.files, server).0)
  {
  }

  /**
   * For a list of paths, entry `i * |kinds| + j` is the local path of kind
   * `j` of path `i` when that file existed before or was fetched, and None
   * otherwise: a failed transfer raises nothing, and its entry is None
   * unless the file already existed.
   */
  lemma ListedEntry(paths: seq<string>, kinds: seq<string>, dstdir: string, disk: Disk, server: set<string>, i: nat, j: nat)
    requires Accepted(KindList(kinds))
    requires i < |paths| && j < |kinds|
    ensures
      var jobs := Transfers(paths, kinds, dstdir);
      var entries := Execute(jobs, disk.files, server).0;
      var job := TransferFor(paths[i], kinds[j], dstdir);
      && DownloadFromFtp(PathList(paths), KindList(kinds), dstdir, disk, server).returned == Listed(entries)
      && |entries| == |paths| * |kinds|
      && 0 <= i * |kinds| + j < |entries|
      && entries[i * |kinds| + j]
         == if Reported(job, i * |kinds| + j, jobs, disk.files, server) then Some(job.dst) else None
  {
    var jobs := Transfers(paths, kinds, dstdir);
    var run := Execute(jobs, disk.files, server);
    ListedRun(paths, kinds, dstdir, disk, server);
    TransfersAt(paths, kinds, dstdir, i, j);
    var n := i * |kinds| + j;
    ExecuteEntry(jobs, disk.files, server, n);
  }

  /**
   * For a single path the call returns the first entry, that of the first
   * kind, and raises IndexError when no kind was requested.
   */
  lemma SingleEntry(path: string, kinds: seq<string>, dstdir: string, disk: Disk, server: set<string>)
    requires Accepted(KindList(kinds))
    ensures
      var d := DownloadFromFtp(OnePath(path), KindList(kinds), dstdir, disk, server);
      var jobs := Transfers([path], kinds, dstdir);
      if |kinds| == 0 then d.returned == IndexFailed
      else
        var job := TransferFor(path, kinds[0], dstdir);
        d.returned == Single(if Reported(job, 0, jobs, disk.files, server) then Some(job.dst) else None)
  {
    var jobs := Transfers([path], kinds, dstdir);
    if |kinds| > 0 {
      TransfersAt([path], kinds, dstdir, 0, 0);
      ExecuteEntry(jobs, disk.files, server, 0);
    } else {
      GridCount([path], kinds, (p, k) => TransferFor(p, k, dstdir));
    }
  }

  /**
   * Repeating a call changes nothing on disk, and every file the first call
   * reported is reported again.
   */
  lemma DownloadTwice(ftppaths: PathsArg, inquiries: KindsArg, dstdir: string, disk: Disk, server: set<string>)
    ensures
      var first := DownloadFromFtp(ftppaths, inquiries, dstdir, disk, server);
      var second := DownloadFromFtp(ftppaths, inquiries, dstdir, first.disk, server);
      && second.disk == first.disk
      && (first.returned.Listed? ==>
            && second.returned.Listed?
            && |second.returned.entries| == |first.returned.entries|
            && forall n :: 0 <= n < |first.returned.entries| && first.returned.entries[n].Some? ==>
                 second.returned.entries[n] == first.returned.entries[n])
      && (first.returned.Single? && first.returned.entry.Some? ==> second.returned == first.returned)
  {
    if Accepted(inquiries) {
      var paths := PathsOf(ftppaths);
      var jobs := Transfers(paths, KindsOf(inquiries), dstdir);
      var run1 := Execute(jobs, disk.files, server);
      var run2 := Execute(jobs, run1.1, server);
      ExecuteFiles(jobs, disk.files, server);
      ExecuteFiles(jobs, run1.1, server);
      assert run2.1 == run1.1;
      forall n | 0 <= n < |jobs| && run1.0[n].Some?
        ensures run2.0[n] == run1.0[n]
      {
        ExecuteEntry(jobs, disk.files, server, n);
        ExecuteEntry(jobs, run1.1, server, n);
      }
    }
  }
}

=== FILE: records.dfy ===
/**
 * Row assembly for the assembly report: the fixed 30-column header, the
 * five property flags, the six sequence statistics and the sentinel
 * defaults, computed from an already-parsed assembly summary document.
 */
module Records {
  import opened Results

  /** One `<Stat>` element of the summary's `Meta` block, already parsed. */
  datatype Stat = Stat(category: string, sequenceTag: string, text: string)

  /** The fields of `DocumentSummarySet.DocumentSummary[0]` that the report reads. */
  datatype Summary = Summary(
    assemblyAccession: string,
    bioSampleId: string,
    assemblyStatus: string,
    bioSampleAccn: string,
    contigN50: string,
    coverage: string,
    ftpPathGenBank: string,
    ftpPathRefSeq: string,
    lastMajorReleaseAccession: string,
    lastUpdateDate: string,
    organism: string,
    partialGenomeRepresentation: string,
    speciesName: string,
    taxid: string,
    submitterOrganization: string,
    refSeqCategory: string,
    gbBioProjects: Option<seq<string>>,  // the `BioprojectAccn` of each `GB_BioProjects` entry; None when the key is absent
    propertyList: seq<string>,
    stats: Option<seq<Stat>>)            // None when `Meta` holds no `Stats` element

  /** The report's columns, in the order they are written. */
  const Header: seq<string> := [
    "AssemblyAccession", "SRA", "Organism", "SpeciesName", "Taxid", "AssemblyStatus",
    "BioSampleAccn", "BioSampleId", "BioprojectAccn", "Coverage", "ContigN50",
    "contig_count", "contig_l50", "scaffold_n50", "scaffold_count", "scaffold_l50", "total_length",
    "RefSeq_category", "PartialGenomeRepresentation", "full-genome-representation",
    "genbank_has_annotation", "refseq_has_annotation", "has_annotation", "WGS", "Platform",
    "FtpPath_GenBank", "FtpPath_RefSeq", "LastMajorReleaseAccession", "LastUpdateDate",
    "SubmitterOrganization"]

  /** The properties that become boolean-string flags. */
  const FlagNames: seq<string> := [
    "full-genome-representation", "genbank_has_annotation", "refseq_has_annotation", "wgs", "has_annotation"]

  /** The sequence statistics read from the `Stats` block. */
  const StatNames: seq<string> := [
    "contig_count", "contig_l50", "scaffold_count", "scaffold_l50", "scaffold_n50", "total_length"]

  /** The header has 30 columns, no two of the same name. */
  lemma HeaderShape()
    ensures |Header| == 30
    ensures forall i, j :: 0 <= i < j < |Header| ==> Header[i] != Header[j]
  {
  }

  /**
   * The property flags: every flag starts as "false" and a property of the
   * list that names a flag sets it to "true"; other properties are ignored.
   */
  function Flags(props: seq<string>): (flags: map<string, string>)
    ensures forall k :: k in flags <==> k in FlagNames
    ensures forall k :: k in FlagNames ==> flags[k] == (if k in props then "true" else "false")
    decreases |props|
  {
    if |props| == 0 then map k | k in FlagNames :: "false"
    else
      var before := Flags(props[..|props| - 1]);
      var p := props[|props| - 1];
      assert props == props[..|props| - 1] + [p];
      if p in before then before[p := "true"] else before
  }

  /** Whether `stat` gives the whole-assembly value of statistic `category`. */
  predicate CountsFor(stat: Stat, category: string) {
    stat.category == category && stat.sequenceTag == "all"
  }

  /**
   * The sequence statistics: each starts as "na"; a Stat of that category
   * tagged "all" overwrites it, so the last such Stat wins.
   */
  function SeqStats(stats: seq<Stat>): (r: map<string, string>)
    ensures forall k :: k in r <==> k in StatNames
    decreases |stats|
  {
    if |stats| == 0 then map k | k in StatNames :: "na"
    else
      var before := SeqStats(stats[..|stats| - 1]);
      var stat := stats[|stats| - 1];
      if stat.category in before && stat.sequenceTag == "all" then before[stat.category := stat.text] else before
  }

  /**
   * The statistics as the loop computes them: a key counts as known only
   * while its current value is non-empty, so once a Stat with empty text
   * has set it, later Stats of that category are ignored.
   */
  function SeqStatsAsWritten(stats: seq<Stat>): (r: map<string, string>)
    ensures forall k :: k in r <==> k in StatNames
    decreases |stats|
  {
    if |stats| == 0 then map k | k in StatNames :: "na"
    else
      var before := SeqStatsAsWritten(stats[..|stats| - 1]);
      var stat := stats[|stats| - 1];
      if stat.category in before && before[stat.category] != "" && stat.sequenceTag == "all"
      then before[stat.category := stat.text] else before
  }

  /** An empty Stat followed by a non-empty one: as written the statistic stays empty. */
  lemma EmptyStatFreezes()
    ensures var stats := [Stat("contig_count", "all", ""), Stat("contig_count", "all", "7")];
      && SeqStatsAsWritten(stats)["contig_count"] == ""
      && SeqStats(stats)["contig_count"] == "7"
  {
    var stats := [Stat("contig_count", "all", ""), Stat("contig_count", "all", "7")];
    assert stats[..1] == [stats[0]];
    assert stats[..1][..0] == [];
  }

  /** When no Stat has empty text, the loop as written computes the statistics. */
  lemma {:induction false} SeqStatsAsWrittenAgrees(stats: seq<Stat>)
    requires forall i :: 0 <= i < |stats| ==> stats[i].text != ""
    ensures SeqStatsAsWritten(stats) == SeqStats(stats)
    ensures forall k :: k in SeqStats(stats) ==> SeqStats(stats)[k] != ""
    decreases |stats|
  {
    if |stats| > 0 {
      SeqStatsAsWrittenAgrees(stats[..|stats| - 1]);
    }
  }

  /** A statistic no Stat tagged "all" gives stays "na"; Stats of other tags or categories are ignored. */
  lemma {:induction false} SeqStatsDefault(stats: seq<Stat>, k: string)
    requires k in StatNames
    requires forall i :: 0 <= i < |stats| ==> !CountsFor(stats[i], k)
    ensures SeqStats(stats)[k] == "na"
    decreases |stats|
  {
    if |stats| > 0 {
      SeqStatsDefault(stats[..|stats| - 1], k);
    }
  }

  /** When several Stats tagged "all" give a statistic, the last of them wins. */
  lemma {:induction false} SeqStatsLastWins(stats: seq<Stat>, k: string, i: nat)
    requires k in StatNames
    requires i < |stats| && CountsFor(stats[i], k)
    requires forall j :: i < j < |stats| ==> !CountsFor(stats[j], k)
    ensures SeqStats(stats)[k] == stats[i].text
    decreases |stats|
  {
    if i < |stats| - 1 {
      SeqStatsLastWins(stats[..|stats| - 1], k, i);
    }
  }

  /** `BioprojectAccn`: the first GenBank BioProject, or "" when there is none. */
  function BioprojectOf(projects: Option<seq<string>>): (r: string)
    ensures projects.None? ==> r == ""
    ensures projects.Some? && |projects.value| == 0 ==> r == ""
    ensures projects.Some? && |projects.value| > 0 ==> r == projects.value[0]
  {
    if projects.Some? && |projects.value| > 0 then projects.value[0] else ""
  }

  /** The flag and statistic names that the row reads are among the known keys. */
  lemma NamesKnown()
    ensures "full-genome-representation" in FlagNames && "genbank_has_annotation" in FlagNames
    ensures "refseq_has_annotation" in FlagNames && "has_annotation" in FlagNames && "wgs" in FlagNames
    ensures "contig_count" in StatNames && "contig_l50" in StatNames && "scaffold_n50" in StatNames
    ensures "scaffold_count" in StatNames && "scaffold_l50" in StatNames && "total_length" in StatNames
  {
  }

  /** One data row of the report: a field per column, named after it. */
  datatype ReportRow = ReportRow(
    assemblyAccession: string, sra: string, organism: string, speciesName: string, taxid: string,
    assemblyStatus: string, bioSampleAccn: string, bioSampleId: string, bioprojectAccn: string,
    coverage: string, contigN50: string, contigCount: string, contigL50: string, scaffoldN50: string,
    scaffoldCount: string, scaffoldL50: string, totalLength: string, refSeqCategory: string,
    partialGenomeRepresentation: string, fullGenomeRepresentation: string,
    genbankHasAnnotation: string, refseqHasAnnotation: string, hasAnnotation: string, wgs: string,
    platform: string, ftpPathGenBank: string, ftpPathRefSeq: string,
    lastMajorReleaseAccession: string, lastUpdateDate: string, submitterOrganization: string)

  /** The fields of a row in header order: the `results` list that is written as one line. */
  function Cells(r: ReportRow): (cells: seq<string>)
    ensures |cells| == |Header|
  {
    [r.assemblyAccession, r.sra, r.organism, r.speciesName, r.taxid, r.assemblyStatus,
     r.bioSampleAccn, r.bioSampleId, r.bioprojectAccn, r.coverage, r.contigN50,
     r.contigCount, r.contigL50, r.scaffoldN50, r.scaffoldCount, r.scaffoldL50, r.totalLength,
     r.refSeqCategory, r.partialGenomeRepresentation, r.fullGenomeRepresentation,
     r.genbankHasAnnotation, r.refseqHasAnnotation, r.hasAnnotation, r.wgs, r.platform,
     r.ftpPathGenBank, r.ftpPathRefSeq, r.lastMajorReleaseAccession, r.lastUpdateDate,
     r.submitterOrganization]
  }

  /** The row built from one summary document and its SRA linkage strings. */
  function AssemblyRow(s: Summary, stats: seq<Stat>, sra: string, platform: string): ReportRow {
    var flags := Flags(s.propertyList);
    var seqStats := SeqStats(stats);
    NamesKnown();
    ReportRow(
      s.assemblyAccession, sra, s.organism, s.speciesName, s.taxid, s.assemblyStatus,
      s.bioSampleAccn, s.bioSampleId, BioprojectOf(s.gbBioProjects), s.coverage, s.contigN50,
      seqStats["contig_count"], seqStats["contig_l50"], seqStats["scaffold_n50"],
      seqStats["scaffold_count"], seqStats["scaffold_l50"], seqStats["total_length"],
      s.refSeqCategory, s.partialGenomeRepresentation, flags["full-genome-representation"],
      flags["genbank_has_annotation"], flags["refseq_has_annotation"], flags["has_annotation"],
      flags["wgs"], platform, s.ftpPathGenBank, s.ftpPathRefSeq, s.lastMajorReleaseAccession,
      s.lastUpdateDate, s.submitterOrganization)
  }

  /** Each flag field is "true" exactly when its property is listed, else "false"; other properties change nothing. */
  lemma RowFlags(s: Summary, stats: seq<Stat>, sra: string, platform: string)
    ensures var row := AssemblyRow(s, stats, sra, platform); var props := s.propertyList;
      && row.fullGenomeRepresentation == (if "full-genome-representation" in props then "true" else "false")
      && row.genbankHasAnnotation == (if "genbank_has_annotation" in props then "true" else "false")
      && row.refseqHasAnnotation == (if "refseq_has_annotation" in props then "true" else "false")
      && row.hasAnnotation == (if "has_annotation" in props then "true" else "false")
      && row.wgs == (if "wgs" in props then "true" else "false")
  {
    NamesKnown();
  }

  /**
   * Each statistic field is "na" unless a Stat of that category is tagged
   * "all", in which case the last such Stat gives it.
   */
  lemma RowStat(s: Summary, stats: seq<Stat>, sra: string, platform: string, k: string)
    requires k in StatNames
    ensures var row := AssemblyRow(s, stats, sra, platform);
      var value := StatField(row, k);
      && ((forall i :: 0 <= i < |stats| ==> !CountsFor(stats[i], k)) ==> value == "na")
      && (forall i :: (0 <= i < |stats| && CountsFor(stats[i], k) &&
            (forall j :: i < j < |stats| ==> !CountsFor(stats[j], k))) ==> value == stats[i].text)
  {
    var value := StatField(AssemblyRow(s, stats, sra, platform), k);
    StatFieldOfRow(s, stats, sra, platform, k);
    if forall i :: 0 <= i < |stats| ==> !CountsFor(stats[i], k) {
      SeqStatsDefault(stats, k);
    }
    forall i | 0 <= i < |stats| && CountsFor(stats[i], k) && (forall j :: i < j < |stats| ==> !CountsFor(stats[j], k))
      ensures value == stats[i].text
    {
      SeqStatsLastWins(stats, k, i);
    }
  }

  /**
   * When no Stat has empty text, each statistic field holds what the loop as
   * written leaves for it, and that value is never empty.
   */
  lemma RowStatAsWritten(s: Summary, stats: seq<Stat>, sra: string, platform: string, k: string)
    requires k in StatNames
    requires forall i :: 0 <= i < |stats| ==> stats[i].text != ""
    ensures var value := StatField(AssemblyRow(s, stats, sra, platform), k);
      value == SeqStatsAsWritten(stats)[k] && value != ""
  {
    StatFieldOfRow(s, stats, sra, platform, k);
    SeqStatsAsWrittenAgrees(stats);
  }

  /** A row's statistic field is the statistics loop's value for it. */
  lemma StatFieldOfRow(s: Summary, stats: seq<Stat>, sra: string, platform: string, k: string)
    requires k in StatNames
    ensures StatField(AssemblyRow(s, stats, sra, platform), k) == SeqStats(stats)[k]
  {
  }

  /** The flag field of a row that holds property flag `k`. */
  function FlagField(row: ReportRow, k: string): string
    requires k in FlagNames
  {
    if k == "full-genome-representation" then row.fullGenomeRepresentation
    else if k == "genbank_has_annotation" then row.genbankHasAnnotation
    else if k == "refseq_has_annotation" then row.refseqHasAnnotation
    else if k == "wgs" then row.wgs
    else row.hasAnnotation
  }

  /**
   * The field a row holds under a column name: the statistic columns are
   * the statistics of the same name, the flag columns the flags of the same
   * name, except that "WGS" holds the "wgs" flag; any other name holds "".
   */
  function Column(row: ReportRow, name: string): string {
    if name in StatNames then StatField(row, name)
    else if name in FlagNames then FlagField(row, name)
    else if name == "WGS" then FlagField(row, "wgs")
    else if name == "AssemblyAccession" then row.assemblyAccession
    else if name == "SRA" then row.sra
    else if name == "Organism" then row.organism
    else if name == "SpeciesName" then row.speciesName
    else if name == "Taxid" then row.taxid
    else if name == "AssemblyStatus" then row.assemblyStatus
    else if name == "BioSampleAccn" then row.bioSampleAccn
    else if name == "BioSampleId" then row.bioSampleId
    else if name == "BioprojectAccn" then row.bioprojectAccn
    else if name == "Coverage" then row.coverage
    else if name == "ContigN50" then row.contigN50
    else if name == "RefSeq_category" then row.refSeqCategory
    else if name == "PartialGenomeRepresentation" then row.partialGenomeRepresentation
    else if name == "Platform" then row.platform
    else if name == "FtpPath_GenBank" then row.ftpPathGenBank
    else if name == "FtpPath_RefSeq" then row.ftpPathRefSeq
    else if name == "LastMajorReleaseAccession" then row.lastMajorReleaseAccession
    else if name == "LastUpdateDate" then row.lastUpdateDate
    else if name == "SubmitterOrganization" then row.submitterOrganization
    else ""
  }

  /** Every cell of a written line sits under the header name of its field. */
  lemma CellsAligned(r: ReportRow)
    ensures forall i :: 0 <= i < |Header| ==> Cells(r)[i] == Column(r, Header[i])
  {
    LeadingColumnsAligned(r);
    StatColumnsAligned(r);
    FlagColumnsAligned(r);
    TrailingColumnsAligned(r);
  }

  /** Columns 0 to 10 (counted from 0, as are all column numbers here): the accession, the SRA runs and the plain summary fields. */
  lemma LeadingColumnsAligned(r: ReportRow)
    ensures forall i :: 0 <= i < 11 ==> Cells(r)[i] == Column(r, Header[i])
  {
  }

  /** Columns 17, 18 and 24 to 29: the category, the representation, the platform and the trailing summary fields. */
  lemma TrailingColumnsAligned(r: ReportRow)
    ensures forall i :: (i == 17 || i == 18 || 24 <= i < 30) ==> Cells(r)[i] == Column(r, Header[i])
  {
  }

  /** Columns 11 to 16 are the six statistics, each under its own name. */
  lemma StatColumnsAligned(r: ReportRow)
    ensures forall i :: 11 <= i < 17 ==> Header[i] in StatNames && Cells(r)[i] == StatField(r, Header[i])
    ensures forall i :: 11 <= i < 17 ==> Cells(r)[i] == Column(r, Header[i])
  {
  }

  /** Columns 19 to 23 are the five flags; the "wgs" flag sits under "WGS". */
  lemma FlagColumnsAligned(r: ReportRow)
    ensures forall i :: 19 <= i < 23 ==> Header[i] in FlagNames && Cells(r)[i] == FlagField(r, Header[i])
    ensures Header[23] == "WGS" && Cells(r)[23] == FlagField(r, "wgs")
    ensures forall i :: 19 <= i < 24 ==> Cells(r)[i] == Column(r, Header[i])
  {
  }

  /** In a written row, the cell under each statistic column is the statistics loop's value of that name. */
  lemma RowStatCells(s: Summary, stats: seq<Stat>, sra: string, platform: string)
    ensures var cells := Cells(AssemblyRow(s, stats, sra, platform));
      forall i :: 11 <= i < 17 ==> Header[i] in SeqStats(stats) && cells[i] == SeqStats(stats)[Header[i]]
  {
    var row := AssemblyRow(s, stats, sra, platform);
    StatColumnsAligned(row);
    forall i | 11 <= i < 17
      ensures Header[i] in SeqStats(stats) && Cells(row)[i] == SeqStats(stats)[Header[i]]
    {
      StatFieldOfRow(s, stats, sra, platform, Header[i]);
    }
  }

  /** The flag columns, one by one: each header name and the field beneath it. */
  lemma FlagCells(r: ReportRow)
    ensures Header[19] == "full-genome-representation" && Cells(r)[19] == r.fullGenomeRepresentation
    ensures Header[20] == "genbank_has_annotation" && Cells(r)[20] == r.genbankHasAnnotation
    ensures Header[21] == "refseq_has_annotation" && Cells(r)[21] == r.refseqHasAnnotation
    ensures Header[22] == "has_annotation" && Cells(r)[22] == r.hasAnnotation
    ensures Header[23] == "WGS" && Cells(r)[23] == r.wgs
  {
  }

  /** The statistic field of a row that holds statistic `k`. */
  function StatField(row: ReportRow, k: string): string
    requires k in StatNames
  {
    if k == "contig_count" then row.contigCount
    else if k == "contig_l50" then row.contigL50
    else if k == "scaffold_n50" then row.scaffoldN50
    else if k == "scaffold_count" then row.scaffoldCount
    else if k == "scaffold_l50" then row.scaffoldL50
    else row.totalLength
  }
}

=== FILE: results.dfy ===
/** Failure-compatible result and optional-value types shared by every module. */
module Results {

  /** A value that may be absent (Python's `None`). */
  datatype Option<+T> = None | Some(value: T)

  /** Either a value or the error that stopped the computation. */
  datatype Result<+T, +E> = Ok(value: T) | Err(error: E) {

    predicate IsFailure() {
      Err?
    }

    function PropagateFailure<U>(): Result<U, E>
      requires Err?
    {
      Err(error)
    }

    function Extract(): T
      requires Ok?
    {
      value
    }
  }
}

=== FILE: retry.dfy ===
/**
 * The bounded retry loop that guards every remote call of the assembly
 * report pipeline: `while attempt <= 3: try call; break; except ...`.
 * A remote call is simulated by the script of answers it would give on its
 * first, second and third attempt.
 */
module RetryLoop {

  /** A call is made at most this many times. */
  const MaxAttempts: nat := 3

  /** What a failed call raised. */
  datatype Fault =
    | HttpError(code: int)   // urllib's HTTPError, carrying the response status
    | RuntimeFault           // RuntimeError, which Entrez.read raises on a malformed reply
    | OtherFault             // any other exception

  /** The result of one attempt of a call. */
  datatype Attempt<+T> = Answered(value: T) | Raised(fault: Fault)

  /** The answers a call gives on its successive attempts; it is asked at most MaxAttempts times. */
  type Script<T> = s: seq<Attempt<T>> | |s| >= MaxAttempts
    witness [Raised(OtherFault), Raised(OtherFault), Raised(OtherFault)]

  /** How a guarded call ends. */
  datatype Outcome<+T> =
    | Done(value: T, calls: nat)          // a call answered on attempt `calls`
    | Propagated(fault: Fault, calls: nat) // attempt `calls` raised a fault that is re-raised
    | Exhausted                           // every attempt raised a retryable fault; no new handle is bound

  /**
   * The HTTP loops retry a server error (status 500 to 599, section 15.6 of
   * RFC 9110) and Too Many Requests (status 429, section 4 of RFC 6585).
   */
  predicate ServerRetryable(f: Fault) {
    f.HttpError? && ((500 <= f.code && f.code <= 599) || f.code == 429)
  }

  /** The loop around `Entrez.read` retries a RuntimeError and nothing else. */
  predicate ReadRetryable(f: Fault) {
    f.RuntimeFault?
  }

  /** Each of the first `n` attempts raised a fault that the loop retries. */
  ghost predicate RetriedThrough<T>(script: seq<Attempt<T>>, retryable: Fault -> bool, n: nat)
    requires n <= |script|
  {
    forall k :: 0 <= k < n ==> script[k].Raised? && retryable(script[k].fault)
  }

  /**
   * `v` is the answer of the attempt that ends the loop: every attempt
   * before it raised a fault the loop retries.
   */
  ghost predicate FirstAnswer<T>(script: seq<Attempt<T>>, retryable: Fault -> bool, v: T)
    requires |script| >= MaxAttempts
  {
    exists k :: 0 <= k < MaxAttempts && script[k] == Answered(v) && RetriedThrough(script, retryable, k)
  }

  /**
   * Runs the loop from attempt number `attempt` on. The outcome is
   * determined by the first attempt that answers or raises a fault the loop
   * does not retry; when there is none within MaxAttempts the loop falls
   * through with nothing bound.
   */
  function RetryFrom<T>(script: Script<T>, retryable: Fault -> bool, attempt: nat): (r: Outcome<T>)
    requires 1 <= attempt <= MaxAttempts + 1
    requires RetriedThrough(script, retryable, attempt - 1)
    ensures r.Done? ==>
      && attempt <= r.calls <= MaxAttempts
      && script[r.calls - 1] == Answered(r.value)
      && RetriedThrough(script, retryable, r.calls - 1)
    ensures r.Propagated? ==>
      && attempt <= r.calls <= MaxAttempts
      && script[r.calls - 1] == Raised(r.fault)
      && !retryable(r.fault)
      && RetriedThrough(script, retryable, r.calls - 1)
    ensures r.Exhausted? <==> RetriedThrough(script, retryable, MaxAttempts)
    decreases MaxAttempts + 1 - attempt
  {
    if attempt > MaxAttempts then Exhausted
    else match script[attempt - 1]
      case Answered(v) => Done(v, attempt)
      case Raised(f) =>
        if retryable(f) then RetryFrom(script, retryable, attempt + 1)
        else Propagated(f, attempt)
  }

  /** One guarded call: the loop started at attempt 1. */
  function Retry<T>(script: Script<T>, retryable: Fault -> bool): (r: Outcome<T>)
    ensures r.Done? ==>
      && 1 <= r.calls <= MaxAttempts
      && script[r.calls - 1] == Answered(r.value)
      && RetriedThrough(script, retryable, r.calls - 1)
    ensures r.Propagated? ==>
      && 1 <= r.calls <= MaxAttempts
      && script[r.calls - 1] == Raised(r.fault)
      && !retryable(r.fault)
      && RetriedThrough(script, retryable, r.calls - 1)
    ensures r.Exhausted? <==> RetriedThrough(script, retryable, MaxAttempts)
  {
    RetryFrom(script, retryable, 1)
  }

  /** The number of calls a guarded call makes to the remote side. */
  function CallsMade<T>(r: Outcome<T>): nat {
    match r
    case Done(_, n) => n
    case Propagated(_, n) => n
    case Exhausted => MaxAttempts
  }

  /**
   * Whatever the remote side answers, a guarded call makes between one and
   * MaxAttempts calls, and every call before the last raised a retryable fault.
   */
  lemma AttemptsBounded<T>(script: Script<T>, retryable: Fault -> bool)
    ensures 1 <= CallsMade(Retry(script, retryable)) <= MaxAttempts
    ensures RetriedThrough(script, retryable, CallsMade(Retry(script, retryable)) - 1)
  {
  }

  /** The outcome depends only on the answers to the calls actually made. */
  lemma {:induction false} OnlyCallsMadeMatter<T>(s1: Script<T>, s2: Script<T>, retryable: Fault -> bool, n: nat)
    requires n == CallsMade(Retry(s1, retryable))
    requires s1[..n] == s2[..n]
    ensures Retry(s1, retryable) == Retry(s2, retryable)
  {
    var r1 := Retry(s1, retryable);
    assert forall k :: 0 <= k < n ==> s1[k] == s2[k] by {
      forall k | 0 <= k < n ensures s1[k] == s2[k] {
        assert s1[..n][k] == s2[..n][k];
      }
    }
    var r2 := Retry(s2, retryable);
    if r1.Exhausted? {
      assert RetriedThrough(s2, retryable, MaxAttempts);
    } else {
      assert RetriedThrough(s2, retryable, n - 1);
      OutcomeUnique(s2, retryable, n);
    }
  }

  /** Attempt `n` of a script whose earlier attempts were retried decides the outcome. */
  lemma {:induction false} OutcomeUnique<T>(script: Script<T>, retryable: Fault -> bool, n: nat)
    requires 1 <= n <= MaxAttempts
    requires RetriedThrough(script, retryable, n - 1)
    requires script[n - 1].Answered? || !retryable(script[n - 1].fault)
    ensures script[n - 1].Answered? ==> Retry(script, retryable) == Done(script[n - 1].value, n)
    ensures script[n - 1].Raised? ==> Retry(script, retryable) == Propagated(script[n - 1].fault, n)
  {
    var r := Retry(script, retryable);
    assert !r.Exhausted? by {
      if n < MaxAttempts { assert !RetriedThrough(script, retryable, MaxAttempts); }
    }
  }

  /** A loop ends on one attempt only, so at most one answer ends it. */
  lemma FirstAnswerUnique<T>(script: Script<T>, retryable: Fault -> bool, v1: T, v2: T)
    requires FirstAnswer(script, retryable, v1) && FirstAnswer(script, retryable, v2)
    ensures v1 == v2
  {
    var k1 :| 0 <= k1 < MaxAttempts && script[k1] == Answered(v1) && RetriedThrough(script, retryable, k1);
    var k2 :| 0 <= k2 < MaxAttempts && script[k2] == Answered(v2) && RetriedThrough(script, retryable, k2);
  }

  /** A call answered after two rate-limited attempts makes exactly three calls and returns the answer. */
  lemma RateLimitedTwiceThenAnswered<T>(v: T)
    ensures Retry([Raised(HttpError(429)), Raised(HttpError(429)), Answered(v)], ServerRetryable) == Done(v, 3)
  {
  }

  /** A call rate-limited on all three attempts binds no result. */
  lemma RateLimitedThrice<T>()
    ensures Retry<T>([Raised(HttpError(429)), Raised(HttpError(429)), Raised(HttpError(429))], ServerRetryable) == Exhausted
  {
  }

  /** A client error such as 404 propagates on the attempt where it occurs. */
  lemma ClientErrorPropagates<T>(v: T)
    ensures Retry([Raised(HttpError(503)), Raised(HttpError(404)), Answered(v)], ServerRetryable) == Propagated(HttpError(404), 2)
  {
  }
}

=== FILE: text.dfy ===
/**
 * String helpers with the meaning Python gives them: `str.split(sep)`,
 * `sep.join(parts)`, `str.startswith`, `os.path.basename` and the POSIX
 * `os.path.join`.
 */
module Text {

  predicate StartsWith(s: string, prefix: string) {
    |prefix| <= |s| && s[..|prefix|] == prefix
  }

  /** `s.split(sep)`: the pieces between separators, always at least one. */
  function Split(s: string, sep: char): (parts: seq<string>)
    ensures |parts| >= 1
    ensures forall i :: 0 <= i < |parts| ==> sep !in parts[i]
    decreases |s|
  {
    if |s| == 0 then [""]
    else
      var rest := Split(s[1..], sep);
      if s[0] == sep then [""] + rest
      else [[s[0]] + rest[0]] + rest[1..]
  }

  /** `sep.join(parts)`. */
  function Join(parts: seq<string>, sep: char): string
    decreases |parts|
  {
    if |parts| == 0 then ""
    else if |parts| == 1 then parts[0]
    else parts[0] + [sep] + Join(parts[1..], sep)
  }

  /** Index of the last `/` in `path`, or -1 when there is none. */
  function LastSlash(path: string): (k: int)
    ensures -1 <= k < |path|
    ensures k >= 0 ==> path[k] == '/'
    ensures forall j :: k < j < |path| ==> path[j] != '/'
    decreases |path|
  {
    if |path| == 0 then -1
    else if path[|path| - 1] == '/' then |path| - 1
    else LastSlash(path[..|path| - 1])
  }

  /** `os.path.basename`: the part of `path` after its last `/` (all of it when there is none). */
  function Basename(path: string): (name: string)
    ensures '/' !in name
    ensures |name| <= |path| && path[|path| - |name|..] == name
  {
    path[LastSlash(path) + 1..]
  }

  /** A basename shorter than its path is preceded by the `/` that ends the directory part. */
  lemma BasenameFollowsSlash(path: string)
    ensures var name := Basename(path);
      |name| < |path| ==> path[|path| - |name| - 1] == '/'
  {
  }

  /** Two-argument POSIX `os.path.join`. */
  function PathJoin(dir: string, name: string): string {
    if StartsWith(name, "/") then name
    else if dir == "" || dir[|dir| - 1] == '/' then dir + name
    else dir + "/" + name
  }

  /** A piece without the separator splits to itself. */
  lemma {:induction false} SplitNoSep(p: string, sep: char)
    requires sep !in p
    ensures Split(p, sep) == [p]
    decreases |p|
  {
    if |p| > 0 {
      assert p[1..] == p[1..];
      SplitNoSep(p[1..], sep);
      assert [p[0]] + p[1..] == p;
    }
  }

  /** Splitting `p + sep + rest` yields `p` and then the pieces of `rest`. */
  lemma {:induction false} SplitCons(p: string, sep: char, rest: string)
    requires sep !in p
    ensures Split(p + [sep] + rest, sep) == [p] + Split(rest, sep)
    decreases |p|
  {
    var s := p + [sep] + rest;
    if |p| == 0 {
      assert s[0] == sep && s[1..] == rest;
    } else {
      assert s[0] == p[0] && s[1..] == p[1..] + [sep] + rest;
      SplitCons(p[1..], sep, rest);
      assert [p[0]] + p[1..] == p;
    }
  }

  /** Joining pieces free of the separator and splitting again gives them back. */
  lemma {:induction false} SplitJoin(parts: seq<string>, sep: char)
    requires |parts| >= 1
    requires forall i :: 0 <= i < |parts| ==> sep !in parts[i]
    ensures Split(Join(parts, sep), sep) == parts
    decreases |parts|
  {
    if |parts| == 1 {
      SplitNoSep(parts[0], sep);
    } else {
      SplitJoin(parts[1..], sep);
      SplitCons(parts[0], sep, Join(parts[1..], sep));
      assert [parts[0]] + parts[1..] == parts;
    }
  }

  /** Splitting and joining again reproduces the string. */
  lemma {:induction false} JoinSplit(s: string, sep: char)
    ensures Join(Split(s, sep), sep) == s
    decreases |s|
  {
    if |s| > 0 {
      var rest := Split(s[1..], sep);
      JoinSplit(s[1..], sep);
      if s[0] == sep {
        assert Split(s, sep) == [""] + rest;
        assert s == [sep] + s[1..];
      } else {
        var parts := [[s[0]] + rest[0]] + rest[1..];
        assert Split(s, sep) == parts;
        if |rest| == 1 {
          assert Join(parts, sep) == [s[0]] + rest[0];
        } else {
          assert Join(rest, sep) == rest[0] + [sep] + Join(rest[1..], sep);
          assert parts[1..] == rest[1..];
        }
        assert s == [s[0]] + s[1..];
      }
    }
  }

  /** The final component of a joined path is the component that was appended. */
  lemma BasenameOfJoin(dir: string, name: string)
    requires '/' !in name
    ensures Basename(PathJoin(dir, name)) == name
  {
    assert !StartsWith(name, "/") by {
      if |name| > 0 { assert name[0] in name; }
    }
    if dir == "" || dir[|dir| - 1] == '/' {
      BasenameAfterSlash(dir, name);
    } else {
      BasenameAfterSlash(dir + "/", name);
      assert dir + "/" + name == (dir + "/") + name;
    }
  }

  /** Appending a `/`-free component to a directory prefix makes it the basename. */
  lemma BasenameAfterSlash(dir: string, name: string)
    requires '/' !in name
    requires dir == "" || dir[|dir| - 1] == '/'
    ensures Basename(dir + name) == name
  {
    var p := dir + name;
    assert |dir| > 0 ==> p[|dir| - 1] == '/';
    assert forall j :: |dir| <= j < |p| ==> p[j] == name[j - |dir|];
    assert forall j :: 0 <= j < |name| ==> name[j] in name;
    assert LastSlash(p) == |dir| - 1;
  }

  /** A character absent from `s` is absent from every piece of `s.split(sep)`. */
  lemma {:induction false} SplitAvoids(s: string, sep: char, c: char)
    requires c !in s
    ensures forall i :: 0 <= i < |Split(s, sep)| ==> c !in Split(s, sep)[i]
    decreases |s|
  {
    if |s| > 0 {
      SplitAvoids(s[1..], sep, c);
      assert forall x :: x in s[1..] ==> x in s;
    }
  }

  /** A character other than `sep` absent from every part is absent from the join. */
  lemma {:induction false} JoinAvoids(parts: seq<string>, sep: char, c: char)
    requires c != sep
    requires forall i :: 0 <= i < |parts| ==> c !in parts[i]
    ensures c !in Join(parts, sep)
    decreases |parts|
  {
    if |parts| > 1 {
      JoinAvoids(parts[1..], sep, c);
    }
  }

  /** A name without `/` is its own basename. */
  lemma BasenameOfPlain(name: string)
    requires '/' !in name
    ensures Basename(name) == name
  {
    assert forall j :: 0 <= j < |name| ==> name[j] != '/';
  }
}
